=== FILE: README.md ===
# Cineflix core in Dafny

A model of the request logic of the Cineflix movie store, an ASP.NET Core MVC
application. Visitors browse a paged catalog, buy movies through a cart paid
with Stripe, keep a wishlist, review movies and play what they bought.
Administrators edit movies and their casts, grant the admin role and moderate
reviews.

The model treats each request as a pure state transition over one store value.
`Models.Db` holds the movie, cart, wishlist, purchase and review tables as
sequences of rows, plus a counter standing in for the identity columns. Money
is a `decimal(18,2)`, so it is kept as exact integer cents.

| file | models |
|---|---|
| `wrappers.dfy` | `Option` and `Result` |
| `arith.dfy` | truncating division (the `(long)` cast), the `long` range and unchecked `int` wrap-around |
| `seqs.dfy` | first match (`FirstOrDefault`), filter (`Where`), sums and their algebra |
| `text.dfy` | ordinal substring search and ordinal string order |
| `sorting.dfy` | a stable sort by a total preorder (`OrderBy`) |
| `paging.dfy` | `PaginatedList`: total pages, previous/next, skip/take at the `int` offset |
| `models.dfy` | the entities: movie, actor, cart row, wishlist row, purchase, purchase item, review, cast link |
| `repository.dfy` | `MovieRespository`: cart, wishlist and purchase transitions and the loaded cart |
| `catalog.dfy` | `GetPaginedAsync`: search filter, sort-key selection and paging |
| `cart_controller.dfy` | `CartController`: totals, badge count, charge, payment gate, receipt |
| `home_controller.dfy` | `HomeController`: `Index` normalisation and sort links, `Play` access |
| `reviews_controller.dfy` | `ReviewsController`: `Create` and `Delete` |
| `validation.dfy` | the data-annotation rules of the movie and actor forms |
| `admin_controller.dfy` | `AdminController`: cast rows, `ToggleAdmin`, rating recompute, review deletion and moderation |

## Behaviour worth knowing

- **Default sort.** The default sort is descending by title. A missing,
  empty or unknown sort key orders the catalog like `"title_desc"`. No request
  produces an ascending-title order (`HomeController.NoAscendingTitleOrder`).
- **Missing movies.** `GetByIdAsync` throws when the movie is missing, so the
  controllers' `== null` checks after it never run. `Play` on a missing movie
  is the fault outcome `MovieLookupFault`. `UpdateMovieRating` on a missing movie
  is `Failure(MovieNotFound)`.
- **Foreign keys.** A cart or wishlist row for a movie that does not exist
  violates the foreign key when saved. The add then fails with
  `ForeignKeyViolation` and the store is unchanged.
- **Charge amount.** The charge is `(long)((C + C*0.1m) * 100)` for a total of
  `C` currency units. In cents this is `11*C/10` truncated toward zero, so the
  tax is truncated, not rounded. The purchase later records the pre-tax total.
  A charge outside the `long` range throws an `OverflowException`, which the
  `StripeException` handler does not catch. The model calls this outcome
  `AmountOverflow`.
- **Payment gate.** The payment confirmation checks only the intent's status.
  It never compares the intent's amount or its `userId` metadata with the cart
  (`CartController.PaymentGateIgnoresAmountAndOwner`). The intent id is not
  remembered either: once the cart is refilled, confirming the same succeeded
  intent again records a second purchase
  (`CartController.ReplayAfterRefillRecordsAgain`).
- **Page offsets.** Both paged queries skip `(pageNumber - 1) * pageSize`
  rows, computed in unchecked 32-bit `int` arithmetic. A page number below 1
  gives a negative offset, which the store refuses. A very large page number
  wraps around: catalog page 715827884 skips 2 rows and shows movies 3 to 8,
  and page 357913944 gives a negative offset (`HomeController.IndexOffsetWraps`,
  `Paging.OffsetWrapsAround`).
- **Purchase item quantity.** Purchase items take the default quantity 1.
  Their prices add up to the recorded total only when every cart row had
  quantity 1 (`Repository.PurchaseItemsVersusTotal`).
- **Reviews.** `ReviewsController.Create` stores the rating without a range
  check. A missing or over-long content passes the controller and is refused
  by the store's `NOT NULL` and length constraints (`StoreRejected`). `ReviewsController.Delete` asks to recompute the rating of the movie
  named in the request, not of the deleted review's movie
  (`ReviewsController.DeleteRecomputesTheRequestedMovie` gives a concrete
  store).
- **Review repository.** The repository methods that `ReviewsController` calls
  have no implementation in the repository. They are:
  - look up a user's review of a movie;
  - look up a review by id;
  - delete a review;
  - recompute a movie's rating.

  The two look-ups and the delete get their plain meaning. The recompute is
  returned as the id of the movie it was asked for.
- **Movie rating.** The movie form's `[Range(1, 5)]` uses the integer
  overload on a `float` rating, so the rating is rounded half to even before
  the check. The form accepts every rating strictly between 0.5 and 5.5,
  such as 5.4 (`FormValidation.RatingInRangeIff`).
- **Actor form.** The form accepts a biography of up to 1000 characters. The
  `Actor.Bio` column holds 500, and the form's value is copied through
  unchanged (`FormValidation.LongBioPassesForm`). The movie form does not
  limit the image URL.
- **Cast rows.** The movie `Create` action drops cast rows with no chosen
  actor or an empty character name. The `Edit` action hands every submitted
  row to the store. A row whose actor id names no actor, the unchosen id 0
  included, violates the `ActorId` foreign key, so the save fails and nothing
  is stored (`AdminController.UnchosenActorRowDiffers`).

## Model

| member | source | states |
|---|---|---|
| Repository.AddMovieToCart | MovieAppProject/Repositories/MovieRespository.cs:55-74 | an existing (user, movie) row gains one unit and nothing else changes; otherwise one row of quantity 1 is appended; for a missing movie with no row the save fails on the foreign key and nothing changes |
| Repository.AddMovieToCartQuantities | MovieAppProject/Repositories/MovieRespository.cs:57-73 | a successful add raises the (user, movie) quantity by one and leaves every other pair's quantity, other users' included, unchanged |
| Repository.AddMovieToCartPreservesValid | MovieAppProject/Repositories/MovieRespository.cs:57-73 | adding keeps at most one row per (user, movie), positive quantities, unique ids and existing movies |
| Repository.RemoveFromCart | MovieAppProject/Repositories/MovieRespository.cs:190-205 | a row with quantity above 1 loses one unit, a row of quantity 1 is deleted, an absent pair changes nothing; only the cart table changes |
| Repository.RemoveFromCartQuantities | MovieAppProject/Repositories/MovieRespository.cs:192-204 | removing lowers the pair's quantity by one, floored at zero, and leaves every other pair's quantity unchanged |
| Repository.RemoveFromCartPreservesValid | MovieAppProject/Repositories/MovieRespository.cs:192-204 | removing keeps the store valid |
| Repository.AddThenRemoveRestoresCart | MovieAppProject/Repositories/MovieRespository.cs:192-204 | a remove undoes a successful add of the same pair exactly |
| Repository.IncrementThenDecrement | MovieAppProject/Repositories/MovieRespository.cs:195-198 | undoing an increment of an existing row restores the cart table |
| Repository.AppendThenDelete | MovieAppProject/Repositories/MovieRespository.cs:199-202 | deleting a freshly inserted row of quantity 1 restores the cart table |
| Repository.AddItemToWishlist | MovieAppProject/Repositories/MovieRespository.cs:38-53 | an existing pair changes nothing; otherwise exactly one row is appended, or the save fails for a missing movie |
| Repository.AddItemToWishlistIdempotent | MovieAppProject/Repositories/MovieRespository.cs:40-41 | a second add of the same pair returns the store unchanged |
| Repository.AddItemToWishlistPreservesValid | MovieAppProject/Repositories/MovieRespository.cs:40-52 | adding keeps at most one wishlist row per (user, movie) |
| Repository.RemoveItemFromWishlist | MovieAppProject/Repositories/MovieRespository.cs:207-215 | the pair's row is deleted, an absent pair changes nothing; only the wishlist changes |
| Repository.RemoveItemFromWishlistRemovesPair | MovieAppProject/Repositories/MovieRespository.cs:209-213 | afterwards the pair is absent and every other row remains |
| Repository.RemoveItemFromWishlistPreservesValid | MovieAppProject/Repositories/MovieRespository.cs:209-213 | removing keeps the wishlist valid |
| Repository.GetCartItems | MovieAppProject/Repositories/MovieRespository.cs:155-159 | the loaded lines are exactly the user's rows, each with its movie's price |
| Repository.JoinLinesTotal | MovieAppProject/Controllers/CartController.cs:39 | the total of the loaded lines equals a per-row sum of price times quantity over the user's rows |
| Repository.ItemsOf | MovieAppProject/Repositories/MovieRespository.cs:94-98 | one purchase item per line, same movie, price at purchase = the movie's price, quantity 1 |
| Repository.CreatePurchase | MovieAppProject/Repositories/MovieRespository.cs:82-109 | an empty list fails and changes nothing; otherwise one purchase with the summed total, status "Succeeded" and one item per line is appended and the passed rows are removed, in one step |
| Repository.CreatePurchaseRemovesExactlyLines | MovieAppProject/Repositories/MovieRespository.cs:104 | a cart row survives the purchase exactly when it was not among the passed lines |
| Repository.LoadedIdsAreUserRows | MovieAppProject/Repositories/MovieRespository.cs:157 | the loaded line ids are exactly the ids of the user's rows |
| Repository.CreatePurchaseClearsUserCart | MovieAppProject/Repositories/MovieRespository.cs:103-104 | purchasing the loaded cart leaves no row of the user and keeps every other user's rows |
| Repository.CreatePurchasePreservesValid | MovieAppProject/Repositories/MovieRespository.cs:84-106 | a purchase keeps the store valid (unique purchase ids, valid carts) |
| Repository.ItemsOfValue | MovieAppProject/Repositories/MovieRespository.cs:94-98 | the items' value sums the lines' unit prices |
| Repository.PriceAtMostLineTotal | MovieAppProject/Models/PurchaseItem.cs:11 | one item's value is at most its line's total, strictly less above quantity 1 |
| Repository.PurchaseItemsVersusTotal | MovieAppProject/Repositories/MovieRespository.cs:91-98 | the items' value equals the recorded total when every quantity is 1, falls short when a priced row has quantity above 1, and never exceeds it |
| Arith.Wrap32 | MovieAppProject/Helpers/PaginatedList.cs:23 | the unchecked `int` result of an integer computation lies in the `int` range and equals the exact value when that is in range |
| Arith.Wrap32Congruent | MovieAppProject/Helpers/PaginatedList.cs:23 | the unchecked result differs from the exact value by a multiple of 2^32 |
| Paging.Offset | MovieAppProject/Helpers/PaginatedList.cs:23 | the skipped row count `(pageIndex - 1) * pageSize` as a C# `int`: in range, and the exact product whenever that fits |
| Paging.OffsetIsCongruent | MovieAppProject/Helpers/PaginatedList.cs:23 | the offset agrees with the exact product modulo 2^32 |
| Paging.OffsetWithoutWrap | MovieAppProject/Helpers/PaginatedList.cs:23 | while the product fits in an `int`, the offset is the product and is non-negative iff the page index is at least 1 |
| Paging.OffsetWrapsAround | MovieAppProject/Helpers/PaginatedList.cs:23 | page 715827884 of size 6 skips 2 rows, page 357913944 gets a negative offset, page 3 of size 2^30 skips -2^31 rows |
| Paging.TotalPages | MovieAppProject/Helpers/PaginatedList.cs:13 | the page count is at most the row count and positive when there are rows |
| Paging.TotalPagesIsCeiling | MovieAppProject/Helpers/PaginatedList.cs:13 | the pages cover every row and the last page is non-empty: `(r-1)*size < count <= r*size` |
| Paging.TotalPagesIsLeast | MovieAppProject/Helpers/PaginatedList.cs:13 | the page count is the least number of pages that covers every row (the ceiling) |
| Paging.Page | MovieAppProject/Helpers/PaginatedList.cs:23 | `Skip(offset).Take(size)`: empty past the end, otherwise `min(size, rows left)` rows, row k being source row offset+k |
| Paging.Create | MovieAppProject/Helpers/PaginatedList.cs:20-25 | refused iff the wrapped offset is negative; otherwise the list keeps the page index, has the page count of the whole source and holds exactly the page at the wrapped offset |
| Paging.CreateLinks | MovieAppProject/Helpers/PaginatedList.cs:17-18 | a previous page iff the index is above 1, a next page iff rows remain past this page; no rows gives 0 pages and no items; a page with a successor is full |
| Paging.NextPageExists | MovieAppProject/Helpers/PaginatedList.cs:18 | the index is below the page count iff rows remain beyond the page |
| Paging.PagesReassemble | MovieAppProject/Helpers/PaginatedList.cs:20-24 | for an `int`-counted source, pages 1 to the page count as `CreateAysnc` returns them are all listed and concatenate to the source |
| Catalog.SortKeyFor | MovieAppProject/Repositories/MovieRespository.cs:168-176 | "Date", "date_desc", "Price" and "price_desc" pick their orders; every other key, a missing one included, picks descending title |
| Catalog.TitleDescIsTheDefault | MovieAppProject/Repositories/MovieRespository.cs:170-175 | "title_desc", a missing key and an empty key select the same order |
| Catalog.Search | MovieAppProject/Repositories/MovieRespository.cs:164-167 | no filter for a missing or empty term; otherwise a movie is kept iff its title, genre, description or director contains the term |
| Catalog.OrderForIsTotalPreorder | MovieAppProject/Repositories/MovieRespository.cs:168-176 | each sort order is total and transitive |
| Catalog.OrderMovies | MovieAppProject/Repositories/MovieRespository.cs:168-176 | the ordered catalog is a permutation of its input, sorted by the chosen key |
| Catalog.GetPagined | MovieAppProject/Repositories/MovieRespository.cs:161-178 | refused iff the wrapped offset is negative; otherwise exactly the page at that offset of the filtered catalog in the chosen order (at most the page size, matching movies only, sorted), with the filtered catalog's page count |
| Catalog.ListingPagesArePages | MovieAppProject/Repositories/MovieRespository.cs:161-178 | the pages `GetPaginedAsync` returns are the pages of the one filtered, ordered catalog |
| Catalog.ListingPagesCoverSearch | MovieAppProject/Repositories/MovieRespository.cs:161-178 | pages 1 to the page count, as `GetPaginedAsync` returns them, are all listed and together hold every matching movie exactly once, in the chosen order, provided every page request returns tied rows in one fixed order |
| Catalog.UnfilteredPagesCoverCatalog | MovieAppProject/Repositories/MovieRespository.cs:161-178 | without a search term, the pages `GetPaginedAsync` returns list every movie exactly once, in the chosen order, provided every page request returns tied rows in one fixed order |
| Catalog.EveryMatchIsListed | MovieAppProject/Repositories/MovieRespository.cs:161-178 | every matching movie appears on some page from 1 to the page count |
| CartController.CartPageTotalByRows | MovieAppProject/Controllers/CartController.cs:39 | the cart total is the sum of price times quantity over the user's rows whose movie exists |
| CartController.AddToCartRaisesTotal | MovieAppProject/Controllers/CartController.cs:39 | a successful add raises the total by the movie's price |
| CartController.RemoveFromCartLowersTotal | MovieAppProject/Controllers/CartController.cs:39 | removing a held movie lowers the total by its price; removing an absent one keeps it |
| CartController.AddToCartRaisesCount | MovieAppProject/Controllers/CartController.cs:251-252 | a successful add raises the badge count by one |
| CartController.RemoveFromCartLowersCount | MovieAppProject/Controllers/CartController.cs:251-252 | removing a held movie lowers the badge count by one |
| CartController.AddTwiceKeepsOneRow | MovieAppProject/Controllers/CartController.cs:248-255 | two adds of a new movie make one row of quantity 2, and the badge counts 2 |
| CartController.Checkout | MovieAppProject/Controllers/CartController.cs:126-154 | an empty cart redirects with "Your cart is empty"; otherwise the lines are shown with the cart page's total and every line's movie exists |
| CartController.ChargeAmount | MovieAppProject/Controllers/CartController.cs:169-171 | the charge lies within one cent below 110% of the total, rounded toward zero |
| CartController.ChargeAmountIsTruncatedTax | MovieAppProject/Controllers/CartController.cs:169-171 | for a non-negative total, an amount is the charge iff it lies within one cent below 110% of the total |
| CartController.CreatePaymentIntent | MovieAppProject/Controllers/CartController.cs:157-193 | an empty cart gets "Your cart is empty" and no intent; otherwise an intent for the charge in "qar" tagged with the user, or an overflow fault outside the `long` range |
| CartController.ProcessPaymentSuccess | MovieAppProject/Controllers/CartController.cs:197-230 | success iff signed in, cart non-empty and status "succeeded"; anonymous and empty-cart calls are refused without a gateway call; a failure changes nothing; success records the loaded cart and returns its id |
| CartController.PaymentGateIgnoresAmountAndOwner | MovieAppProject/Controllers/CartController.cs:213-214 | the outcome does not depend on the intent's amount or owner |
| CartController.ConfirmedPaymentClearsCart | MovieAppProject/Controllers/CartController.cs:217-219 | a confirmed payment empties the payer's cart and badge, keeps others' rows and keeps the store valid |
| CartController.SecondConfirmationIsRefused | MovieAppProject/Controllers/CartController.cs:205-206 | confirming twice in a row: the second finds the cart empty and records nothing |
| CartController.ReplayAfterRefillRecordsAgain | MovieAppProject/Controllers/CartController.cs:197-230 | after the cart is refilled, confirming the same succeeded intent again records a second purchase under the same intent id |
| CartController.RecordedTotalIsPreTax | MovieAppProject/Repositories/MovieRespository.cs:91 | the recorded total is the pre-tax total whose charge the intent requested |
| CartController.PurchaseComplete | MovieAppProject/Controllers/CartController.cs:232-245 | a receipt is shown only for an existing purchase of the current user |
| CartController.PurchaseCompleteOwnerOnly | MovieAppProject/Controllers/CartController.cs:239-242 | with unique ids, a purchase's receipt is shown to its owner and to nobody else |
| CartController.ReceiptAfterPayment | MovieAppProject/Controllers/CartController.cs:219 | right after a confirmed payment the returned id opens the new purchase for the payer only |
| HomeController.SortLinksFor | MovieAppProject/Controllers/HomeController.cs:28-30 | the title link leads to descending title; date and price links lead to ascending unless that is the current order, then to descending |
| HomeController.HeadersToggle | MovieAppProject/Controllers/HomeController.cs:29-30 | following the date (or price) link twice returns to the first order |
| HomeController.NoAscendingTitleOrder | MovieAppProject/Controllers/HomeController.cs:28 | the title order never puts a smaller title first |
| HomeController.NormaliseQuery | MovieAppProject/Controllers/HomeController.cs:32-39 | a submitted search restarts at page 1; otherwise the previous filter and the page number are kept, page 1 when none |
| HomeController.Index | MovieAppProject/Controllers/HomeController.cs:25-48 | with the normalised search and page: a store error iff the wrapped offset of a six-movie page is negative, otherwise exactly that page of the filtered, ordered catalog |
| HomeController.IndexRefusesExactlyThePagesBelowOne | MovieAppProject/Controllers/HomeController.cs:25-47 | for page numbers whose offset does not wrap, the request fails iff the page is below 1 |
| HomeController.IndexOffsetWraps | MovieAppProject/Controllers/HomeController.cs:45-46 | page 715827884 shows the six movies from the third on; page 357913944 is a store error |
| HomeController.PageLinksKeepTheSearch | MovieAppProject/Controllers/HomeController.cs:36-39 | a page link of a result is refused exactly when that page of the same search is, and otherwise shows it with the same filter |
| HomeController.NewSearchStartsAtFirstPage | MovieAppProject/Controllers/HomeController.cs:32-35 | a new search shows page 1, with no previous page |
| HomeController.Play | MovieAppProject/Controllers/HomeController.cs:98-140 | a missing movie is a lookup fault; a trailer for anyone; the full video iff the movie exists, the request is not for the trailer, the user bought it or is an admin and it has a video URL; the missing-URL page iff the same holds without a URL; otherwise a redirect to details; a non-YouTube URL that does not answer shows the unavailable message |
| HomeController.AnonymousSeesOnlyTrailers | MovieAppProject/Controllers/HomeController.cs:112-119 | an anonymous non-admin never gets the full video |
| HomeController.PaymentGrantsPlay | MovieAppProject/Controllers/HomeController.cs:113-116 | after a confirmed payment every movie of the cart still exists and plays in full (that movie's video) iff it has a video URL, else shows the missing-URL page |
| HomeController.PurchasesOnlyGrowAccess | MovieAppProject/Controllers/HomeController.cs:113-114 | a later purchase never revokes access |
| ReviewsController.Create | MovieAppProject/Controllers/ReviewsController.cs:26-60 | a missing movie is not found; a second review is refused with its message; a missing or over-long content is rejected by the store and nothing changes; otherwise exactly one review with the given fields is added and that movie's rating is recomputed |
| ReviewsController.CreateKeepsOneReviewPerUserAndMovie | MovieAppProject/Controllers/ReviewsController.cs:28-54 | sequential posts keep at most one review per (user, movie) |
| ReviewsController.CreatePreservesValid | MovieAppProject/Controllers/ReviewsController.cs:45-54 | posting keeps the store valid |
| ReviewsController.SecondReviewIsRefused | MovieAppProject/Controllers/ReviewsController.cs:37-43 | after a successful post, a second post is refused and changes nothing |
| ReviewsController.RatingIsStoredUnchecked | MovieAppProject/Controllers/ReviewsController.cs:45-54 | ratings outside 1 to 5 are stored as given |
| ReviewsController.Delete | MovieAppProject/Controllers/ReviewsController.cs:62-85 | an unknown id is not found; a non-author non-admin is forbidden; otherwise the review is removed and the request's movie is recomputed |
| ReviewsController.DeleteRemovesExactlyTheReview | MovieAppProject/Controllers/ReviewsController.cs:79 | with unique ids, no review with the id remains and all others stay |
| ReviewsController.OnlyAuthorOrAdminDeletes | MovieAppProject/Controllers/ReviewsController.cs:74-77 | the store changes only for an admin or the review's author |
| ReviewsController.DeleteRecomputesTheRequestedMovie | MovieAppProject/Controllers/ReviewsController.cs:79-81 | a store where the deleted review's movie keeps its rating while another movie is recomputed |
| FormValidation.MovieFormValid | MovieAppProject/Models/ViewModels/Movies/MovieViewModel.cs:10-45 | title and genre required and at most 100, description at most 500, director at most 100, price 1 to 100000 cents, rating passing the integer `[Range(1, 5)]`, video URL a URL of at most 255, duration 1 to 500, and every cast row with a required character name of at most 100 |
| FormValidation.RatingInRangeIff | MovieAppProject/Models/ViewModels/Movies/MovieViewModel.cs:34-35 | the integer `[Range(1, 5)]` on the `float` rating, applied after rounding half to even, accepts exactly the ratings strictly between 0.5 and 5.5 |
| FormValidation.MovieFromForm | MovieAppProject/Controllers/AdminController.cs:124-135 | the stored movie copies every form field (title, genre, description, director, release date, price, duration, rating, video URL) and takes the chosen image path |
| FormValidation.ValidMovieFormFitsColumns | MovieAppProject/Models/ViewModels/Movies/MovieViewModel.cs:10-41 | a valid form yields a movie within every column limit, given an image path of at most 255 characters |
| FormValidation.MovieFormBoundaries | MovieAppProject/Models/ViewModels/Movies/MovieViewModel.cs:26-45 | price 1 and 100000 cents, durations 1 and 500 and ratings 0.6 and 5.4 pass; prices 0 and 100001, durations 0 and 501 and ratings 0.5 and 5.5 fail |
| FormValidation.MovieFormOptionalFields | MovieAppProject/Models/ViewModels/Movies/MovieViewModel.cs:10-32 | description, director and video URL may be missing; title and genre may not |
| FormValidation.ActorFormValid | MovieAppProject/Models/ViewModels/Movies/MovieActorViewModel.cs:8-18 | name required and at most 100, biography required and at most 1000, image URL required and a URL |
| FormValidation.ActorFromForm | MovieAppProject/Controllers/AdminController.cs:327-333 | the stored actor copies name, biography, birthday and image URL unchanged |
| FormValidation.ActorNameBoundary | MovieAppProject/Models/ViewModels/Movies/MovieActorViewModel.cs:8-10 | a 100-character name passes, 101 fails |
| FormValidation.ValidActorFormFitsColumnsIff | MovieAppProject/Models/ViewModels/Movies/MovieActorViewModel.cs:12-18 | a valid form fits the actor columns iff its biography has at most 500 characters and its image URL at most 255 |
| FormValidation.LongBioPassesForm | MovieAppProject/Models/ViewModels/Movies/MovieActorViewModel.cs:12-14 | a 501 to 1000 character biography passes the form and overflows the column |
| AdminController.CreateCast | MovieAppProject/Controllers/AdminController.cs:136-141 | the save fails iff a kept row names an unknown actor; otherwise exactly the rows with a chosen actor and a non-empty character become links of the new movie |
| AdminController.EditCast | MovieAppProject/Controllers/AdminController.cs:251-259 | the save fails iff some submitted row names an unknown actor; otherwise the movie's links become one per submitted row, unfiltered and in order, and other movies' links stay |
| AdminController.CreateAndEditCastAgreeOnChosenActors | MovieAppProject/Controllers/AdminController.cs:136 | on validated rows create keeps a row iff its actor is chosen; with every actor chosen, create fails iff edit does, and on success create stores exactly the links edit installs for the movie |
| AdminController.UnchosenActorRowDiffers | MovieAppProject/Controllers/AdminController.cs:251-259 | a row without an actor is dropped on create, and makes the edit's save fail |
| AdminController.ToggleAdmin | MovieAppProject/Controllers/AdminController.cs:438-452 | an unknown user is not found and nothing changes; otherwise only that user's admin membership flips |
| AdminController.ToggleAdminTwiceRestores | MovieAppProject/Controllers/AdminController.cs:443-450 | two toggles restore the roles |
| AdminController.ToggleAdminKeepsAdminsRegistered | MovieAppProject/Controllers/AdminController.cs:440-441 | only registered users ever hold the role |
| AdminController.RatingsOf | MovieAppProject/Controllers/AdminController.cs:508 | the ratings of the movie's reviews, one per review, in order |
| AdminController.UpdateMovieRating | MovieAppProject/Controllers/AdminController.cs:503-512 | a missing movie raises; without reviews nothing changes; otherwise only that movie's rating is rewritten |
| AdminController.UpdateMovieRatingPreservesValid | MovieAppProject/Controllers/AdminController.cs:506-511 | a recompute keeps the store valid |
| AdminController.DeleteReview | MovieAppProject/Controllers/AdminController.cs:489-501 | an unknown id is not found; otherwise the review is removed and its own movie's rating recomputed |
| AdminController.DeleteReviewTouchesOnlyItsMovie | MovieAppProject/Controllers/AdminController.cs:491-498 | in a valid store only the deleted review's movie may change, and not at all when it has no reviews left |
| AdminController.ManageReviews | MovieAppProject/Controllers/AdminController.cs:455-485 | a store error iff the wrapped offset is negative; otherwise exactly the page at that offset of all reviews newest first (at most the page size, sorted), with the total count |
| AdminController.ModerationPagesCoverAllReviews | MovieAppProject/Controllers/AdminController.cs:457-464 | for an `int`-counted table, moderation pages 1 to the page count are all shown and together list every review exactly once, newest first, provided every page request returns tied rows in one fixed order |
| AdminController.EveryReviewIsModerated | MovieAppProject/Controllers/AdminController.cs:457-464 | every review appears on some moderation page from 1 to the page count |

## Left out

- Stripe: the gateway calls are not modelled. A lookup's reply is an input (`IntentReply`), and a create request is an output (`IntentRequested`). The client secret is not modelled.
- Persistence mechanics are not modelled: eager loading, change tracking, cascade deletes and the transaction of `SaveChangesAsync`. Each save is one atomic step.
- Text matching and title ordering are ordinal (by character code). The database collation may be case-insensitive and is not modelled.
- Concurrency: the model covers sequential requests only. Nothing in the schema makes (user, movie) unique, so two adds racing each other could create duplicate rows.
- Clocks are the `now` parameter, and identity columns are one counter, `nextId`.
- Identity: the user, and whether they hold the Admin role, are parameters. User management, sign-in and account pages are not modelled.
- HomeController.Play: the HTTP probe of a non-YouTube video URL is the parameter `videoReachable`.
- AdminController.UpdateMovieRating: the rounded floating-point average is the parameter `ratingOf`, so only the "only when reviews exist" guard is proved.
- AdminController.EditCast: the composite key of cast links is not modelled, so submitting one actor twice in an edit is not flagged as a key conflict. `CreateCast` and `EditCast` state the cast only; the movie fields that a failed save also leaves unstored are not part of their result.
- Repository.AddMovieToCart: the Boolean that the controller expects is not modelled, because the implementation computes none. The 32-bit wrap-around of `Quantity` is not modelled, because it needs two billion adds of one movie.
- Catalog.GetPagined: requires a page size from 1 to the `int` maximum; every `int` page index is accepted. The page size `Index` passes is always 6.
- Paging.Create: requires a page size from 1 to the `int` maximum, because `Take` of zero or fewer rows is not modelled. The cover lemmas (`Paging.PagesReassemble`, `Catalog.ListingPagesCoverSearch`, `AdminController.ModerationPagesCoverAllReviews`) assume at most `int`-maximum rows, because `CountAsync` returns an `int`.
- HomeController.Index: the page number is an `int`; a query-string value outside the `int` range, which model binding turns into null, is not modelled.
- AdminController.ManageReviews: requires a page size from 1 to the `int` maximum. A page size of 0 or below comes only from a hand-edited query string.
- Sorting: ties are kept in input order. The database may return tied rows in any order.
- Catalog.ListingPagesCoverSearch, Catalog.UnfilteredPagesCoverCatalog, AdminController.ModerationPagesCoverAllReviews: these assume every page request returns tied rows in the same order, because the model cuts all pages from one sorted list. The program does not ensure this. Each page is a separate query, and title, release date, price and review date are not unique keys, so two separate requests may order tied rows differently. Then one row can appear on two pages and another on none: for two movies of equal price sorted by price with page size 1, pages 1 and 2 can both show the same movie.
- Repository.GetCartItems: `GetCartItemsAsync` has no `OrderBy`, so the order of the loaded lines, and with it the order of the purchase items, is unspecified. The model returns them in cart-table order; only the set of lines and their sums are claimed.
- FormValidation.RatingInRangeIff: the rating is a `float`; the model uses exact reals, so single-precision rounding of the submitted value is not modelled. A rating outside the `int` range makes `Convert.ToInt32` throw during validation; the model counts it as rejected, which matches the outcome that nothing is stored.
- Decimal precision is not modelled: prices are whole cents, as `decimal(18,2)` stores them.
- String lengths count characters, not UTF-16 code units.
- Whether the optional text columns accept null depends on the project's nullable-reference setting, which no project file shows. The model treats them as nullable.
- FormValidation.MovieFormOptionalFields: the same setting decides whether the form may leave description, director and video URL empty. With nullable reference types enabled, MVC treats the non-nullable `string` properties of the movie form as implicitly required. The model follows the attributes alone, which is the behaviour with the setting off.
- Out of scope, not modelled:
  - featured movies;
  - the new-and-popular page, whose rating filter is floating point;
  - the wishlist page;
  - the details page;
  - image upload and delete;
  - the browser scripts.

=== FILE: admin_controller.dfy ===
/** The administrator's pages that carry logic: the cast rows a created or
    edited movie gets, the admin-role toggle, the rating recompute, review
    deletion and the review moderation list. The recomputed rating itself (a
    rounded floating-point average) is the parameter `ratingOf`. */
module AdminController {
  import opened Wrappers
  import opened Models
  import opened Seqs
  import opened Sorting
  import opened Arith
  import opened Paging
  import opened Text
  import opened Repository
  import opened FormValidation
  import ReviewsController

  // -------------------------------------------------------------------- cast

  /** A form row as a cast link of `movieId`. */
  function LinkOf(movieId: int, row: ActorInput): MovieActor {
    MovieActor(row.characterName, movieId, row.actorId)
  }

  /** The links made from `rows`, one per row, in order. */
  function LinksOf(movieId: int, rows: seq<ActorInput>): (r: seq<MovieActor>)
    ensures |r| == |rows|
    ensures forall k :: 0 <= k < |r| ==> r[k] == LinkOf(movieId, rows[k])
  {
    seq(|rows|, k requires 0 <= k < |rows| => LinkOf(movieId, rows[k]))
  }

  /** The rows `Create` keeps: a chosen actor and a character name. */
  predicate KeptOnCreate(row: ActorInput) {
    row.actorId != 0 && !IsNullOrEmpty(row.characterName)
  }

  function KeptRow(): ActorInput -> bool {
    (row: ActorInput) => KeptOnCreate(row)
  }

  /** Why the store refuses a cast: a link's `ActorId` is a foreign key into
      the Actor table, and the save fails when it names no actor. The
      action's `catch` then shows the form again and nothing is stored. */
  datatype CastError = UnknownActor

  /** Some row that would be stored names an actor the table does not hold. */
  predicate NamesUnknownActor(rows: seq<ActorInput>, actorIds: set<int>, stored: ActorInput -> bool) {
    exists j :: 0 <= j < |rows| && stored(rows[j]) && rows[j].actorId !in actorIds
  }

  function AnyRow(): ActorInput -> bool {
    (row: ActorInput) => true
  }

  /** The cast `Create` stores for the actor ids `actorIds` of the Actor
      table: a link for every kept row and nothing else, or a refusal when a
      kept row names an unknown actor. */
  function CreateCast(movieId: int, rows: seq<ActorInput>, actorIds: set<int>): (r: Result<seq<MovieActor>, CastError>)
    ensures r.Failure? <==> NamesUnknownActor(rows, actorIds, KeptRow())
    ensures r.Success? ==> forall k :: 0 <= k < |r.value| ==>
              && r.value[k].movieId == movieId && r.value[k].actorId != 0 && !IsNullOrEmpty(r.value[k].characterName)
              && r.value[k].actorId in actorIds
              && exists j :: 0 <= j < |rows| && r.value[k] == LinkOf(movieId, rows[j])
    ensures r.Success? ==> forall j :: 0 <= j < |rows| && KeptOnCreate(rows[j]) ==> LinkOf(movieId, rows[j]) in r.value
  {
    if NamesUnknownActor(rows, actorIds, KeptRow()) then Failure(UnknownActor)
    else
      var kept := Filter(rows, KeptRow());
      var r := LinksOf(movieId, kept);
      assert forall j :: 0 <= j < |rows| && KeptOnCreate(rows[j]) ==> LinkOf(movieId, rows[j]) in r by {
        forall j | 0 <= j < |rows| && KeptOnCreate(rows[j])
          ensures LinkOf(movieId, rows[j]) in r
        {
          var k :| 0 <= k < |kept| && kept[k] == rows[j];
          assert r[k] == LinkOf(movieId, rows[j]);
        }
      }
      assert forall k :: 0 <= k < |r| ==> r[k].actorId in actorIds && exists j :: 0 <= j < |rows| && r[k] == LinkOf(movieId, rows[j]) by {
        forall k | 0 <= k < |r|
          ensures r[k].actorId in actorIds && exists j :: 0 <= j < |rows| && r[k] == LinkOf(movieId, rows[j])
        {
          var j :| 0 <= j < |rows| && rows[j] == kept[k];
        }
      }
      Success(r)
  }

  function OfMovie(movieId: int): MovieActor -> bool {
    (l: MovieActor) => l.movieId == movieId
  }

  function NotOfMovie(movieId: int): MovieActor -> bool {
    (l: MovieActor) => l.movieId != movieId
  }

  /** `Edit`: the movie's cast becomes exactly one link per submitted row, in
      order and unfiltered; other movies' links stay. A row naming no actor
      of the table (the form's unchosen 0 among them) makes the save fail,
      and the cast is left as it was. */
  function EditCast(links: seq<MovieActor>, movieId: int, rows: seq<ActorInput>, actorIds: set<int>)
    : (r: Result<seq<MovieActor>, CastError>)
    ensures r.Failure? <==> NamesUnknownActor(rows, actorIds, AnyRow())
    ensures r.Success? ==> Filter(r.value, OfMovie(movieId)) == LinksOf(movieId, rows)
    ensures r.Success? ==> forall k :: 0 <= k < |r.value| && r.value[k].movieId != movieId ==> r.value[k] in links
    ensures r.Success? ==> forall k :: 0 <= k < |links| && links[k].movieId != movieId ==> links[k] in r.value
  {
    if NamesUnknownActor(rows, actorIds, AnyRow()) then Failure(UnknownActor)
    else
      var others := Filter(links, NotOfMovie(movieId));
      var added := LinksOf(movieId, rows);
      FilterAppend(others, added, OfMovie(movieId));
      FilterNone(others, OfMovie(movieId));
      var r := others + added;
      assert forall k :: 0 <= k < |r| && r[k].movieId != movieId ==> r[k] in links by {
        forall k | 0 <= k < |r| && r[k].movieId != movieId
          ensures r[k] in links
        {
          assert k < |others|;
        }
      }
      Success(r)
  }

  /** On rows that passed form validation, `Create` drops exactly the rows
      without a chosen actor; with every actor chosen, `Create` and `Edit`
      refuse the same rows, and otherwise `Create` stores the links `Edit`
      installs for the movie. */
  lemma CreateAndEditCastAgreeOnChosenActors(a: Annotations, links: seq<MovieActor>, movieId: int,
                                             rows: seq<ActorInput>, actorIds: set<int>)
    requires forall k :: 0 <= k < |rows| ==> ActorInputValid(a, rows[k])
    ensures forall k :: 0 <= k < |rows| ==> (KeptOnCreate(rows[k]) <==> rows[k].actorId != 0)
    ensures (forall k :: 0 <= k < |rows| ==> rows[k].actorId != 0) ==>
              var created := CreateCast(movieId, rows, actorIds);
              var edited := EditCast(links, movieId, rows, actorIds);
              && (created.Failure? <==> edited.Failure?)
              && (created.Success? ==> created.value == Filter(edited.value, OfMovie(movieId)))
  {
    forall k | 0 <= k < |rows|
      ensures KeptOnCreate(rows[k]) <==> rows[k].actorId != 0
    {
      var i :| 0 <= i < |rows[k].characterName.value| && !a.isWhiteSpace(rows[k].characterName.value[i]);
    }
    if forall k :: 0 <= k < |rows| ==> rows[k].actorId != 0 {
      assert forall k :: 0 <= k < |rows| ==> KeptOnCreate(rows[k]);
      assert Filter(rows, KeptRow()) == rows;
      assert NamesUnknownActor(rows, actorIds, KeptRow()) <==> NamesUnknownActor(rows, actorIds, AnyRow());
    }
  }

  /** A row without a chosen actor (0, which no actor row has) is dropped by
      `Create`, while `Edit` hands it to the store and fails. */
  lemma UnchosenActorRowDiffers(links: seq<MovieActor>, movieId: int, name: string, actorIds: set<int>)
    requires |name| > 0 && 0 !in actorIds
    ensures var row := ActorInput(0, Some(name));
            && CreateCast(movieId, [row], actorIds) == Success([])
            && EditCast(links, movieId, [row], actorIds) == Failure(UnknownActor)
  {
    var row := ActorInput(0, Some(name));
    assert !KeptOnCreate(row);
    assert !NamesUnknownActor([row], actorIds, KeptRow());
    assert AnyRow()([row][0]);
    assert NamesUnknownActor([row], actorIds, AnyRow());
  }

  // ------------------------------------------------------------ admin toggle

  /** The registered users and the holders of the Admin role. */
  datatype Roles = Roles(users: set<string>, admins: set<string>)

  datatype AdminError = UserNotFound | MovieNotFound

  /** `ToggleAdmin`: an unknown user is not found; otherwise the user's Admin
      membership flips and nobody else's changes. */
  function ToggleAdmin(roles: Roles, userId: string): (r: Result<Roles, AdminError>)
    ensures r.Failure? <==> userId !in roles.users
    ensures r.Failure? ==> r.error == UserNotFound
    ensures r.Success? ==>
              && r.value.users == roles.users
              && (userId in r.value.admins <==> userId !in roles.admins)
              && r.value.admins - {userId} == roles.admins - {userId}
  {
    if userId !in roles.users then Failure(UserNotFound)
    else if userId in roles.admins then Success(roles.(admins := roles.admins - {userId}))
    else Success(roles.(admins := roles.admins + {userId}))
  }

  /** Toggling twice restores the roles. */
  lemma ToggleAdminTwiceRestores(roles: Roles, userId: string)
    ensures var once := ToggleAdmin(roles, userId);
            once.Success? ==> ToggleAdmin(once.value, userId) == Success(roles)
  {
    var once := ToggleAdmin(roles, userId);
    if once.Success? {
      var twice := ToggleAdmin(once.value, userId).value;
      assert twice.admins == roles.admins;
    }
  }

  /** Only registered users ever hold the role. */
  lemma ToggleAdminKeepsAdminsRegistered(roles: Roles, userId: string)
    requires roles.admins <= roles.users
    ensures ToggleAdmin(roles, userId).Success? ==> ToggleAdmin(roles, userId).value.admins <= roles.users
  {
  }

  // ---------------------------------------------------------- rating update

  function IsOfMovie(movieId: int): Review -> bool {
    (r: Review) => r.movieId == movieId
  }

  /** The ratings of the movie's reviews, in table order. */
  function RatingsOf(reviews: seq<Review>, movieId: int): (r: seq<int>)
    ensures |r| == |Filter(reviews, IsOfMovie(movieId))|
    ensures forall k :: 0 <= k < |r| ==> r[k] == Filter(reviews, IsOfMovie(movieId))[k].rating
  {
    var mine := Filter(reviews, IsOfMovie(movieId));
    seq(|mine|, k requires 0 <= k < |mine| => mine[k].rating)
  }

  predicate HasReviews(db: Db, movieId: int) {
    exists k :: 0 <= k < |db.reviews| && db.reviews[k].movieId == movieId
  }

  /** `UpdateMovieRating`: a missing movie raises; a movie without reviews
      keeps its rating; otherwise only that movie's rating is rewritten. */
  function UpdateMovieRating(db: Db, movieId: int, ratingOf: seq<int> -> real): (r: Result<Db, AdminError>)
    ensures r.Failure? <==> !MovieExists(db.movies, movieId)
    ensures r.Failure? ==> r.error == MovieNotFound
    ensures r.Success? && !HasReviews(db, movieId) ==> r.value == db
    ensures r.Success? ==>
              && r.value.(movies := db.movies) == db
              && |r.value.movies| == |db.movies|
              && var i := FindMovie(db.movies, movieId).value;
              && (forall k :: 0 <= k < |db.movies| && k != i ==> r.value.movies[k] == db.movies[k])
              && r.value.movies[i].(rating := db.movies[i].rating) == db.movies[i]
              && (HasReviews(db, movieId) ==> r.value.movies[i].rating == ratingOf(RatingsOf(db.reviews, movieId)))
  {
    match FindMovie(db.movies, movieId)
    case None => Failure(MovieNotFound)
    case Some(i) =>
      if |RatingsOf(db.reviews, movieId)| == 0 then
        assert !HasReviews(db, movieId) by {
          assert forall k :: 0 <= k < |db.reviews| ==> !IsOfMovie(movieId)(db.reviews[k]);
        }
        Success(db)
      else
        assert HasReviews(db, movieId) by {
          var first := Filter(db.reviews, IsOfMovie(movieId))[0];
          assert first in db.reviews && first.movieId == movieId;
        }
        var m := db.movies[i];
        Success(db.(movies := db.movies[i := m.(rating := ratingOf(RatingsOf(db.reviews, movieId)))]))
  }

  /** A recompute never changes anything but the one movie's rating, and keeps
      the store valid. */
  lemma UpdateMovieRatingPreservesValid(db: Db, movieId: int, ratingOf: seq<int> -> real)
    requires Valid(db)
    ensures UpdateMovieRating(db, movieId, ratingOf).Success? ==> Valid(UpdateMovieRating(db, movieId, ratingOf).value)
  {
    var r := UpdateMovieRating(db, movieId, ratingOf);
    if r.Success? {
      var a := r.value;
      assert forall k :: 0 <= k < |db.movies| ==> a.movies[k].id == db.movies[k].id;
      assert forall id :: MovieExists(db.movies, id) ==> MovieExists(a.movies, id) by {
        forall id | MovieExists(db.movies, id)
          ensures MovieExists(a.movies, id)
        {
          var j := FindMovie(db.movies, id).value;
          assert a.movies[j].id == id;
        }
      }
    }
  }

  // ---------------------------------------------------------- review delete

  datatype AdminPage = NotFound | RedirectToManageReviews | UnhandledError

  datatype AdminStep = AdminStep(page: AdminPage, db: Db)

  /** `DeleteReview`: remove the review, then recompute the rating of the
      review's own movie. The removal is saved before the recompute runs, so a
      failing recompute leaves the review deleted. */
  function DeleteReview(db: Db, id: int, ratingOf: seq<int> -> real): (r: AdminStep)
    ensures ReviewsController.FindReview(db.reviews, id).None? ==> r == AdminStep(NotFound, db)
    ensures ReviewsController.FindReview(db.reviews, id).Some? ==>
              var i := ReviewsController.FindReview(db.reviews, id).value;
              var removed := db.(reviews := RemoveAt(db.reviews, i));
              var update := UpdateMovieRating(removed, db.reviews[i].movieId, ratingOf);
              && (update.Success? ==> r == AdminStep(RedirectToManageReviews, update.value))
              && (update.Failure? ==> r == AdminStep(UnhandledError, removed))
  {
    match ReviewsController.FindReview(db.reviews, id)
    case None => AdminStep(NotFound, db)
    case Some(i) =>
      var removed := db.(reviews := RemoveAt(db.reviews, i));
      match UpdateMovieRating(removed, db.reviews[i].movieId, ratingOf)
      case Success(updated) => AdminStep(RedirectToManageReviews, updated)
      case Failure(_) => AdminStep(UnhandledError, removed)
  }

  /** In a valid store a delete always succeeds; it rewrites at most the rating
      of the deleted review's own movie, and keeps that rating when no review
      of the movie remains. */
  lemma DeleteReviewTouchesOnlyItsMovie(db: Db, id: int, ratingOf: seq<int> -> real)
    requires Valid(db)
    ensures var r := DeleteReview(db, id, ratingOf);
            ReviewsController.FindReview(db.reviews, id).Some? ==>
              var review := db.reviews[ReviewsController.FindReview(db.reviews, id).value];
              && r.page == RedirectToManageReviews
              && |r.db.movies| == |db.movies|
              && (forall k :: 0 <= k < |db.movies| && db.movies[k].id != review.movieId ==> r.db.movies[k] == db.movies[k])
              && (!HasReviews(r.db, review.movieId) ==> r.db.movies == db.movies)
  {
    var f := ReviewsController.FindReview(db.reviews, id);
    if f.Some? {
      var i := f.value;
      var review := db.reviews[i];
      var removed := db.(reviews := RemoveAt(db.reviews, i));
      assert MovieExists(db.movies, review.movieId);
      var j := FindMovie(db.movies, review.movieId).value;
      assert forall k :: 0 <= k < |db.movies| && db.movies[k].id != review.movieId ==> k != j;
    }
  }

  // ------------------------------------------------------ review moderation

  /** `OrderByDescending(r => r.ReviewDate)`. */
  function NewerFirst(): (Review, Review) -> bool {
    (a: Review, b: Review) => b.reviewDate <= a.reviewDate
  }

  datatype ReviewList = ReviewList(reviews: seq<Review>, currentPage: int, itemsPerPage: int, totalItems: int)

  datatype ModerationPage =
    | Moderation(list: ReviewList)
      /** The offset `(pageNumber - 1) * pageSize`, computed in `int`
          arithmetic, is negative: the store rejects a negative skip with an
          error. */
    | NegativeOffset

  /** All reviews, newest first: the order the moderation pages cut up. */
  function ReviewsNewestFirst(db: Db): (r: seq<Review>)
    ensures multiset(r) == multiset(db.reviews)
    ensures Sorted(r, NewerFirst())
  {
    SortBySorted(db.reviews, NewerFirst());
    SortBy(db.reviews, NewerFirst())
  }

  /** `ManageReviews`: one page of all reviews, newest first, from the
      (wrapped) offset on, with the total review count. */
  function ManageReviews(db: Db, pageNumber: int, pageSize: int): (r: ModerationPage)
    requires InInt32(pageNumber) && 1 <= pageSize <= Int32Max
    ensures r.NegativeOffset? <==> Offset(pageNumber, pageSize) < 0
    ensures r.Moderation? ==>
              var list := r.list;
              && list.totalItems == |db.reviews| && list.currentPage == pageNumber && list.itemsPerPage == pageSize
              && list.reviews == Page(ReviewsNewestFirst(db), Offset(pageNumber, pageSize), pageSize)
              && |list.reviews| <= pageSize
              && (forall k :: 0 <= k < |list.reviews| ==> list.reviews[k] in db.reviews)
              && Sorted(list.reviews, NewerFirst())
  {
    var offset := Offset(pageNumber, pageSize);
    if offset < 0 then ModerationPage.NegativeOffset
    else
      var page := Page(ReviewsNewestFirst(db), offset, pageSize);
      PageOfReviews(db, offset, pageSize);
      Moderation(ReviewList(page, pageNumber, pageSize, |db.reviews|))
  }

  /** Any page cut from the newest-first reviews holds stored reviews, in order. */
  lemma PageOfReviews(db: Db, offset: int, pageSize: int)
    requires offset >= 0 && pageSize >= 1
    ensures var page := Page(ReviewsNewestFirst(db), offset, pageSize);
            && (forall k :: 0 <= k < |page| ==> page[k] in db.reviews)
            && Sorted(page, NewerFirst())
  {
    var ordered := ReviewsNewestFirst(db);
    var page := Page(ordered, offset, pageSize);
    forall k | 0 <= k < |page|
      ensures page[k] in db.reviews
    {
      assert page[k] in multiset(ordered);
    }
  }

  /** The reviews a moderation page lists; none for a refused one. */
  function ReviewsOn(r: ModerationPage): seq<Review> {
    if r.Moderation? then r.list.reviews else []
  }

  /** The reviews of moderation pages `from` .. `from + count - 1`, one after
      the other, as `ManageReviews` returns them. */
  function ModerationPages(db: Db, pageSize: int, from: int, count: nat): seq<Review>
    requires Int32Min <= from && from + count <= Int32Max + 1 && 1 <= pageSize <= Int32Max
    decreases count
  {
    if count == 0 then [] else ReviewsOn(ManageReviews(db, from, pageSize)) + ModerationPages(db, pageSize, from + 1, count - 1)
  }

  lemma {:induction false} ModerationPagesArePages(db: Db, pageSize: int, from: int, count: nat)
    requires Int32Min <= from && from + count <= Int32Max + 1 && 1 <= pageSize <= Int32Max
    ensures ModerationPages(db, pageSize, from, count) == Pages(ReviewsNewestFirst(db), pageSize, from, count)
    decreases count
  {
    if count > 0 {
      var ordered := ReviewsNewestFirst(db);
      assert ModerationPages(db, pageSize, from + 1, count - 1) == Pages(ordered, pageSize, from + 1, count - 1) by {
        ModerationPagesArePages(db, pageSize, from + 1, count - 1);
      }
      assert ReviewsOn(ManageReviews(db, from, pageSize)) == RowsOf(Create(ordered, from, pageSize)) by {
        ModerationPageIsPage(db, pageSize, from);
      }
    }
  }

  /** Paging through the moderation list from page 1 to its last page lists
      every review exactly once, newest first, and the store refuses none of
      those pages. */
  lemma ModerationPagesCoverAllReviews(db: Db, pageSize: int)
    requires 1 <= pageSize <= Int32Max && |db.reviews| <= Int32Max
    ensures var shown := ModerationPages(db, pageSize, 1, TotalPages(|db.reviews|, pageSize));
            && multiset(shown) == multiset(db.reviews)
            && Sorted(shown, NewerFirst())
    ensures forall p :: 1 <= p <= TotalPages(|db.reviews|, pageSize) ==> ManageReviews(db, p, pageSize).Moderation?
  {
    var t := TotalPages(|db.reviews|, pageSize);
    ModerationPagesArePages(db, pageSize, 1, t);
    PagesReassemble(ReviewsNewestFirst(db), pageSize);
    forall p | 1 <= p <= t
      ensures ManageReviews(db, p, pageSize).Moderation?
    {
      ModerationPageIsPage(db, pageSize, p);
    }
  }

  /** Every stored review is on one of the moderation pages. */
  lemma EveryReviewIsModerated(db: Db, pageSize: int, review: Review)
    requires 1 <= pageSize <= Int32Max && |db.reviews| <= Int32Max
    requires review in db.reviews
    ensures exists p :: 1 <= p <= TotalPages(|db.reviews|, pageSize) && review in ReviewsOn(ManageReviews(db, p, pageSize))
  {
    var ordered := ReviewsNewestFirst(db);
    var t := TotalPages(|db.reviews|, pageSize);
    assert review in Pages(ordered, pageSize, 1, t) by {
      assert review in multiset(ordered);
      PagesReassemble(ordered, pageSize);
    }
    var p := OnSomePage(ordered, pageSize, 1, t, review);
    assert review in ReviewsOn(ManageReviews(db, p, pageSize)) by {
      ModerationPageIsPage(db, pageSize, p);
    }
  }

  /** A moderation page lists the rows `CreateAysnc` would cut at the same page. */
  lemma ModerationPageIsPage(db: Db, pageSize: int, p: int)
    requires InInt32(p) && 1 <= pageSize <= Int32Max
    ensures ReviewsOn(ManageReviews(db, p, pageSize)) == RowsOf(Create(ReviewsNewestFirst(db), p, pageSize))
    ensures ManageReviews(db, p, pageSize).Moderation? <==> Create(ReviewsNewestFirst(db), p, pageSize).Listed?
  {
  }
}

=== FILE: arith.dfy ===
/** Integer facts and the C# integer operations whose rounding differs from
    Dafny's: `(long)` of a decimal truncates toward zero, Dafny's `/` floors
    for a positive divisor. */
module Arith {

  lemma MulNonNegative(a: int, b: int)
    requires a >= 0 && b >= 0
    ensures a * b >= 0
  {
  }

  lemma MulMonotone(a: int, b: int, c: int)
    requires a <= b && c >= 0
    ensures a * c <= b * c
  {
    MulNonNegative(b - a, c);
    assert (b - a) * c == b * c - a * c;
  }

  /** Division truncating toward zero, as C# casts a decimal quotient to `long`. */
  function TruncDiv(a: int, b: int): (q: int)
    requires b > 0
    ensures a >= 0 ==> q >= 0 && q * b <= a < q * b + b
    ensures a < 0 ==> q <= 0 && q * b - b < a <= q * b
  {
    if a >= 0 then a / b else -((-a) / b)
  }

  /** Range of a C# `long` (Int64). */
  const LongMin: int := -0x8000_0000_0000_0000
  const LongMax: int := 0x7FFF_FFFF_FFFF_FFFF

  /** Range of a C# `int` (Int32). */
  const Int32Min: int := -0x8000_0000
  const Int32Max: int := 0x7FFF_FFFF

  predicate InInt32(x: int) {
    Int32Min <= x <= Int32Max
  }

  /** Unchecked C# `int` arithmetic: the exact value shifted by multiples of
      2^32 until it lies in the Int32 range. */
  function Wrap32(x: int): (r: int)
    ensures InInt32(r)
    ensures InInt32(x) ==> r == x
    decreases if x > Int32Max then x - Int32Max else if x < Int32Min then Int32Min - x else 0
  {
    if x > Int32Max then Wrap32(x - 0x1_0000_0000)
    else if x < Int32Min then Wrap32(x + 0x1_0000_0000)
    else x
  }

  /** `Wrap32` only drops multiples of 2^32, so it is the two's-complement
      reading of the low 32 bits. */
  lemma {:induction false} Wrap32Congruent(x: int)
    ensures (x - Wrap32(x)) % 0x1_0000_0000 == 0
    decreases if x > Int32Max then x - Int32Max else if x < Int32Min then Int32Min - x else 0
  {
    if x > Int32Max {
      Wrap32Congruent(x - 0x1_0000_0000);
    } else if x < Int32Min {
      Wrap32Congruent(x + 0x1_0000_0000);
    }
  }
}

=== FILE: cart_controller.dfy ===
/** The shopping-cart pages: the cart and checkout totals, the cart badge
    count, the payment-intent amount, the payment confirmation gate and the
    receipt page. The payment gateway is a parameter: its reply to a lookup is
    passed in, and a request to it is returned as data. */
module CartController {
  import opened Wrappers
  import opened Models
  import opened Seqs
  import opened Arith
  import opened Repository

  // ------------------------------------------------------------ cart totals

  /** The total shown on the cart page and the checkout page. */
  function CartPageTotal(db: Db, userId: string): Cents {
    CartTotal(GetCartItems(db, userId))
  }

  /** The total is the sum, over every cart row of the user whose movie exists,
      of price times quantity. */
  lemma CartPageTotalByRows(db: Db, userId: string)
    ensures CartPageTotal(db, userId) == SumOf(db.carts, RowValue(db.movies, userId))
  {
    JoinLinesTotal(db.carts, db.movies, userId);
  }

  /** Adding a movie raises the cart total by exactly that movie's price. */
  lemma AddToCartRaisesTotal(db: Db, userId: string, movieId: int, now: Instant)
    requires CartsValid(db)
    ensures AddMovieToCart(db, userId, movieId, now).Success? ==>
              CartPageTotal(AddMovieToCart(db, userId, movieId, now).value, userId)
                == CartPageTotal(db, userId) + PriceOf(db.movies, movieId)
  {
    var r := AddMovieToCart(db, userId, movieId, now);
    if r.Success? {
      var after := r.value;
      assert after.movies == db.movies;
      CartPageTotalByRows(db, userId);
      CartPageTotalByRows(after, userId);
      match FindCartItem(db.carts, userId, movieId)
      case Some(i) =>
        assert MovieExists(db.movies, db.carts[i].movieId);
        IncrementedCartTotal(db, after, userId, i);
      case None =>
        SumOfAppend(db.carts, [CartItem(db.nextId, movieId, userId, now, 1)], RowValue(db.movies, userId));
    }
  }

  /** The per-row sum after one of the user's rows gained a unit. */
  lemma IncrementedCartTotal(db: Db, after: Db, userId: string, i: nat)
    requires i < |db.carts| && db.carts[i].userId == userId && MovieExists(db.movies, db.carts[i].movieId)
    requires after.movies == db.movies && |after.carts| == |db.carts|
    requires after.carts[i] == db.carts[i].(quantity := db.carts[i].quantity + 1)
    requires forall k :: 0 <= k < |db.carts| && k != i ==> after.carts[k] == db.carts[k]
    ensures SumOf(after.carts, RowValue(db.movies, userId))
            == SumOf(db.carts, RowValue(db.movies, userId)) + PriceOf(db.movies, db.carts[i].movieId)
  {
    assert after.carts == db.carts[i := db.carts[i].(quantity := db.carts[i].quantity + 1)];
    SumAfterQuantityChange(db.movies, userId, db.carts, i, 1);
  }

  /** Changing the quantity of one of the user's rows by `delta` changes the
      per-row sum by `delta` times its movie's price. */
  lemma SumAfterQuantityChange(movies: seq<Movie>, userId: string, carts: seq<CartItem>, i: nat, delta: int)
    requires i < |carts| && carts[i].userId == userId && MovieExists(movies, carts[i].movieId)
    ensures SumOf(carts[i := carts[i].(quantity := carts[i].quantity + delta)], RowValue(movies, userId))
            == SumOf(carts, RowValue(movies, userId)) + delta * PriceOf(movies, carts[i].movieId)
  {
    var c := carts[i];
    var f := RowValue(movies, userId);
    SumOfUpdate(carts, i, c.(quantity := c.quantity + delta), f);
    var p := PriceOf(movies, c.movieId);
    assert f(c.(quantity := c.quantity + delta)) == p * (c.quantity + delta);
    assert f(c) == p * c.quantity;
    assert p * (c.quantity + delta) == p * c.quantity + delta * p;
  }

  /** Removing a movie the cart holds lowers the total by that movie's price;
      removing one it does not hold changes nothing. */
  lemma RemoveFromCartLowersTotal(db: Db, userId: string, movieId: int)
    requires CartsValid(db)
    ensures FindCartItem(db.carts, userId, movieId).Some? ==>
              CartPageTotal(RemoveFromCart(db, userId, movieId), userId)
                == CartPageTotal(db, userId) - PriceOf(db.movies, movieId)
    ensures FindCartItem(db.carts, userId, movieId).None? ==>
              CartPageTotal(RemoveFromCart(db, userId, movieId), userId) == CartPageTotal(db, userId)
  {
    var a := RemoveFromCart(db, userId, movieId);
    CartPageTotalByRows(db, userId);
    CartPageTotalByRows(a, userId);
    match FindCartItem(db.carts, userId, movieId)
    case None =>
    case Some(i) =>
      var c := db.carts[i];
      assert MovieExists(db.movies, c.movieId) && c.quantity >= 1;
      if c.quantity > 1 {
        assert a.carts == db.carts[i := c.(quantity := c.quantity + -1)];
        SumAfterQuantityChange(db.movies, userId, db.carts, i, -1);
      } else {
        SumAfterLastUnitRemoved(db.movies, userId, db.carts, i);
      }
  }

  /** Deleting a one-unit row of the user takes its movie's price off the sum. */
  lemma SumAfterLastUnitRemoved(movies: seq<Movie>, userId: string, carts: seq<CartItem>, i: nat)
    requires i < |carts| && carts[i].userId == userId && MovieExists(movies, carts[i].movieId)
    requires carts[i].quantity == 1
    ensures SumOf(RemoveAt(carts, i), RowValue(movies, userId))
            == SumOf(carts, RowValue(movies, userId)) - PriceOf(movies, carts[i].movieId)
  {
    SumOfRemoveAt(carts, i, RowValue(movies, userId));
  }

  // ------------------------------------------------------------- badge count

  /** What one row contributes to its owner's badge count. */
  function UnitsOf(userId: string): CartItem -> int {
    (c: CartItem) => if c.userId == userId then c.quantity else 0
  }

  /** `GetCartItemCount` (and the count `AddToCart` reports): the sum of the
      quantities of the user's rows, not the number of rows. */
  function CartItemCount(db: Db, userId: string): int {
    SumOf(db.carts, UnitsOf(userId))
  }

  /** Every successful add raises the badge count by one, whether it created a
      row or incremented one. */
  lemma AddToCartRaisesCount(db: Db, userId: string, movieId: int, now: Instant)
    ensures AddMovieToCart(db, userId, movieId, now).Success? ==>
              CartItemCount(AddMovieToCart(db, userId, movieId, now).value, userId) == CartItemCount(db, userId) + 1
  {
    var r := AddMovieToCart(db, userId, movieId, now);
    if r.Success? {
      match FindCartItem(db.carts, userId, movieId)
      case Some(i) =>
        var c := db.carts[i];
        assert r.value.carts == db.carts[i := c.(quantity := c.quantity + 1)];
        SumOfUpdate(db.carts, i, c.(quantity := c.quantity + 1), UnitsOf(userId));
      case None =>
        SumOfAppend(db.carts, [CartItem(db.nextId, movieId, userId, now, 1)], UnitsOf(userId));
    }
  }

  /** Every remove of a held movie lowers the badge count by one. */
  lemma RemoveFromCartLowersCount(db: Db, userId: string, movieId: int)
    requires CartsValid(db)
    ensures FindCartItem(db.carts, userId, movieId).Some? ==>
              CartItemCount(RemoveFromCart(db, userId, movieId), userId) == CartItemCount(db, userId) - 1
  {
    match FindCartItem(db.carts, userId, movieId)
    case None =>
    case Some(i) =>
      var c := db.carts[i];
      if c.quantity > 1 {
        SumOfUpdate(db.carts, i, c.(quantity := c.quantity - 1), UnitsOf(userId));
      } else {
        SumOfRemoveAt(db.carts, i, UnitsOf(userId));
      }
  }

  /** Adding the same movie twice to a cart that lacks it leaves one row of
      quantity 2, so the badge counts 2 while the cart lists one line. */
  lemma AddTwiceKeepsOneRow(db: Db, userId: string, movieId: int, t1: Instant, t2: Instant)
    requires CartsValid(db) && MovieExists(db.movies, movieId)
    requires FindCartItem(db.carts, userId, movieId).None?
    ensures var a := AddMovieToCart(db, userId, movieId, t1);
            && a.Success?
            && var b := AddMovieToCart(a.value, userId, movieId, t2);
            && b.Success?
            && FindCartItem(b.value.carts, userId, movieId) == Some(|db.carts|)
            && b.value.carts[|db.carts|].quantity == 2
            && |b.value.carts| == |db.carts| + 1
            && CartItemCount(b.value, userId) == CartItemCount(db, userId) + 2
  {
    var a := AddMovieToCart(db, userId, movieId, t1).value;
    var n := |db.carts|;
    assert IsCartOf(a.carts[n], userId, movieId);
    assert forall k :: 0 <= k < n ==> !IsCartOf(a.carts[k], userId, movieId);
    assert FindCartItem(a.carts, userId, movieId) == Some(n);
    var b := AddMovieToCart(a, userId, movieId, t2).value;
    assert IsCartOf(b.carts[n], userId, movieId);
    assert forall k :: 0 <= k < n ==> !IsCartOf(b.carts[k], userId, movieId);
    AddToCartRaisesCount(db, userId, movieId, t1);
    AddToCartRaisesCount(a, userId, movieId, t2);
  }

  // ---------------------------------------------------------------- checkout

  datatype CheckoutPage =
    | EmptyCartRedirect(error: string)
    | CheckoutView(lines: seq<CartLine>, total: Cents)

  /** `Checkout`: an empty cart redirects back to the cart with an error; any
      other cart is shown with the same total as the cart page. The loop over
      the lines re-reading each movie cannot fail, because a loaded line's
      movie exists. */
  function Checkout(db: Db, userId: string): (r: CheckoutPage)
    ensures r.EmptyCartRedirect? <==> |GetCartItems(db, userId)| == 0
    ensures r.EmptyCartRedirect? ==> r.error == "Your cart is empty"
    ensures r.CheckoutView? ==>
              && r.total == CartPageTotal(db, userId)
              && r.lines == GetCartItems(db, userId)
              && forall k :: 0 <= k < |r.lines| ==> MovieExists(db.movies, r.lines[k].item.movieId)
  {
    var lines := GetCartItems(db, userId);
    if |lines| == 0 then EmptyCartRedirect("Your cart is empty")
    else CheckoutView(lines, CartTotal(lines))
  }

  // ---------------------------------------------------------- payment intent

  const Currency: string := "qar"

  /** The charged amount: total plus 10% tax, as a `decimal`, cast to `long`
      (the cast truncates toward zero). */
  function ChargeAmount(totalCents: Cents): (amount: int)
    ensures totalCents >= 0 ==> totalCents <= amount && 10 * amount <= 11 * totalCents < 10 * amount + 10
    ensures totalCents < 0 ==> amount <= totalCents && 10 * amount - 10 < 11 * totalCents <= 10 * amount
  {
    TruncDiv(11 * totalCents, 10)
  }

  /** The charge is the unique whole number of cents within one cent below
      110% of a non-negative total. */
  lemma ChargeAmountIsTruncatedTax(totalCents: Cents, amount: int)
    requires totalCents >= 0
    ensures amount == ChargeAmount(totalCents) <==> 10 * amount <= 11 * totalCents < 10 * amount + 10
  {
    var c := ChargeAmount(totalCents);
    if 10 * amount <= 11 * totalCents < 10 * amount + 10 {
      if amount < c {
        MulMonotone(amount + 1, c, 10);
      } else if c < amount {
        MulMonotone(c + 1, amount, 10);
      }
    }
  }

  predicate InLongRange(x: int) {
    LongMin <= x <= LongMax
  }

  datatype IntentOutcome =
    | IntentError(error: string)
    | IntentRequested(amount: int, currency: string, metadataUserId: string)
    | AmountOverflow

  /** `CreatePaymentIntent`: an empty cart is answered with an error; otherwise
      an intent for the charged amount in riyals is requested, tagged with the
      user. A charge outside the `long` range raises an `OverflowException`
      that the handler does not catch. */
  function CreatePaymentIntent(db: Db, userId: string): (r: IntentOutcome)
    ensures r == IntentError("Your cart is empty") <==> |GetCartItems(db, userId)| == 0
    ensures r.IntentRequested? ==>
              && r.amount == ChargeAmount(CartPageTotal(db, userId))
              && InLongRange(r.amount)
              && r.currency == "qar"
              && r.metadataUserId == userId
    ensures r.AmountOverflow? <==>
              |GetCartItems(db, userId)| > 0 && !InLongRange(ChargeAmount(CartPageTotal(db, userId)))
  {
    var lines := GetCartItems(db, userId);
    if |lines| == 0 then IntentError("Your cart is empty")
    else
      var amount := ChargeAmount(CartTotal(lines));
      if !InLongRange(amount) then AmountOverflow
      else IntentRequested(amount, Currency, userId)
  }

  // ---------------------------------------------------- payment confirmation

  /** What looking the intent up with the gateway yields. */
  datatype IntentReply =
    | Retrieved(status: string, amount: int, metadataUserId: string)
    | GatewayFault(message: string, innerMessage: Option<string>)

  datatype PaymentResponse = PaymentResponse(success: bool, message: Option<string>, purchaseId: Option<int>)

  datatype PaymentStep = PaymentStep(response: PaymentResponse, db: Db, gatewayQueried: bool)

  function Refused(message: string): PaymentResponse {
    PaymentResponse(false, Some(message), None)
  }

  /** `$"Unexpected error: {ex.Message} {ex.InnerException?.Message}"`: a null
      inner message interpolates as nothing. */
  function UnexpectedError(message: string, innerMessage: Option<string>): string {
    "Unexpected error: " + message + " " + (if innerMessage.Some? then innerMessage.value else "")
  }

  /** `ProcessPaymentSuccess`: refuse an anonymous caller and an empty cart
      before asking the gateway; then record the purchase of the loaded cart
      exactly when the intent's status is `succeeded`. */
  function ProcessPaymentSuccess(db: Db, userId: Option<string>, paymentIntentId: string, reply: IntentReply, now: Instant)
    : (r: PaymentStep)
    ensures r.response.success <==>
              && userId.Some?
              && |GetCartItems(db, userId.value)| > 0
              && reply.Retrieved?
              && reply.status == "succeeded"
    ensures !r.response.success ==> r.db == db && r.response.purchaseId.None?
    ensures r.gatewayQueried <==> userId.Some? && |GetCartItems(db, userId.value)| > 0
    ensures userId.None? ==> r.response.message == Some("User not logged in.")
    ensures userId.Some? && |GetCartItems(db, userId.value)| == 0 ==> r.response.message == Some("Cart is empty.")
    ensures r.gatewayQueried && reply.Retrieved? && reply.status != "succeeded" ==>
              r.response.message == Some("Payment failed.")
    ensures r.gatewayQueried && reply.GatewayFault? ==>
              r.response.message == Some(UnexpectedError(reply.message, reply.innerMessage))
    ensures r.response.success ==>
              && r.response.message.None?
              && r.response.purchaseId == Some(db.nextId)
              && var lines := GetCartItems(db, userId.value);
              && r.db == CreatePurchase(db, userId.value, paymentIntentId, lines, now).value.db
              && r.db.purchases == db.purchases + [Purchase(db.nextId, now, CartPageTotal(db, userId.value),
                                                             userId.value, paymentIntentId, "Succeeded", ItemsOf(lines))]
  {
    match userId
    case None => PaymentStep(Refused("User not logged in."), db, false)
    case Some(u) =>
      var lines := GetCartItems(db, u);
      if |lines| == 0 then PaymentStep(Refused("Cart is empty."), db, false)
      else
        match reply
        case GatewayFault(message, inner) => PaymentStep(Refused(UnexpectedError(message, inner)), db, true)
        case Retrieved(status, _, _) =>
          if status != "succeeded" then PaymentStep(Refused("Payment failed."), db, true)
          else
            var rec := CreatePurchase(db, u, paymentIntentId, lines, now).value;
            PaymentStep(PaymentResponse(true, None, Some(rec.purchase.id)), rec.db, true)
  }

  /** The confirmation looks only at the intent's status: neither the amount
      it charged nor the user it was created for is compared with the cart. */
  lemma PaymentGateIgnoresAmountAndOwner(db: Db, userId: Option<string>, paymentIntentId: string, now: Instant,
                                         status: string, a1: int, o1: string, a2: int, o2: string)
    ensures ProcessPaymentSuccess(db, userId, paymentIntentId, Retrieved(status, a1, o1), now)
         == ProcessPaymentSuccess(db, userId, paymentIntentId, Retrieved(status, a2, o2), now)
  {
  }

  /** A confirmed payment empties the payer's cart, keeps every other user's
      rows, and keeps the store valid. */
  lemma ConfirmedPaymentClearsCart(db: Db, userId: string, paymentIntentId: string, reply: IntentReply, now: Instant)
    requires Valid(db)
    ensures var r := ProcessPaymentSuccess(db, Some(userId), paymentIntentId, reply, now);
            r.response.success ==>
              && Valid(r.db)
              && |GetCartItems(r.db, userId)| == 0
              && CartItemCount(r.db, userId) == 0
              && (forall c :: c in db.carts && c.userId != userId ==> c in r.db.carts)
  {
    var r := ProcessPaymentSuccess(db, Some(userId), paymentIntentId, reply, now);
    if r.response.success {
      var lines := GetCartItems(db, userId);
      CreatePurchaseClearsUserCart(db, userId, paymentIntentId, now);
      CreatePurchasePreservesValid(db, userId, paymentIntentId, lines, now);
      NoRowsNoLines(r.db, userId);
    }
  }

  lemma {:induction false} NoRowsJoinNothing(carts: seq<CartItem>, movies: seq<Movie>, userId: string)
    requires forall k :: 0 <= k < |carts| ==> carts[k].userId != userId
    ensures JoinLines(carts, movies, userId) == []
    decreases |carts|
  {
    if |carts| > 0 {
      NoRowsJoinNothing(carts[1..], movies, userId);
    }
  }

  lemma NoRowsNoLines(db: Db, userId: string)
    requires forall c :: c in db.carts ==> c.userId != userId
    ensures |GetCartItems(db, userId)| == 0 && CartItemCount(db, userId) == 0
  {
    NoRowsJoinNothing(db.carts, db.movies, userId);
    assert forall k :: 0 <= k < |db.carts| ==> UnitsOf(userId)(db.carts[k]) == 0;
    SumOfZero(db.carts, UnitsOf(userId));
  }

  /** Confirming the same intent twice in a row records one purchase: the
      second call finds the cart empty and does not reach the gateway. The
      intent id itself is not remembered (see `ReplayAfterRefillRecordsAgain`). */
  lemma SecondConfirmationIsRefused(db: Db, userId: string, paymentIntentId: string, reply: IntentReply, reply2: IntentReply,
                                    now: Instant, later: Instant)
    requires Valid(db)
    ensures var r := ProcessPaymentSuccess(db, Some(userId), paymentIntentId, reply, now);
            r.response.success ==>
              var r2 := ProcessPaymentSuccess(r.db, Some(userId), paymentIntentId, reply2, later);
              && r2 == PaymentStep(Refused("Cart is empty."), r.db, false)
  {
    ConfirmedPaymentClearsCart(db, userId, paymentIntentId, reply, now);
  }

  /** Nothing ties a purchase to a fresh intent: once the cart holds a movie
      again, replaying an intent id the gateway reports as succeeded records a
      second purchase under the same intent id. */
  lemma ReplayAfterRefillRecordsAgain(db: Db, userId: string, paymentIntentId: string, reply: IntentReply,
                                      movieId: int, later: Instant, now: Instant)
    requires Valid(db)
    requires reply.Retrieved? && reply.status == "succeeded"
    ensures var r := ProcessPaymentSuccess(db, Some(userId), paymentIntentId, reply, now);
            var refill := AddMovieToCart(r.db, userId, movieId, later);
            r.response.success && refill.Success? ==>
              var r2 := ProcessPaymentSuccess(refill.value, Some(userId), paymentIntentId, reply, later);
              && r2.response.success
              && |r2.db.purchases| == |db.purchases| + 2
              && r2.db.purchases[|db.purchases|].paymentIntentId == paymentIntentId
              && r2.db.purchases[|db.purchases| + 1].paymentIntentId == paymentIntentId
  {
    var r := ProcessPaymentSuccess(db, Some(userId), paymentIntentId, reply, now);
    var refill := AddMovieToCart(r.db, userId, movieId, later);
    if r.response.success && refill.Success? {
      ConfirmedPaymentClearsCart(db, userId, paymentIntentId, reply, now);
      var a := refill.value;
      assert FindCartItem(r.db.carts, userId, movieId).None?;
      var c := CartItem(r.db.nextId, movieId, userId, later, 1);
      assert c in a.carts && MovieExists(a.movies, movieId);
      assert |GetCartItems(a, userId)| > 0;
    }
  }

  /** The purchase records the pre-tax total while the intent that the same
      cart produced charged 110% of it, truncated. */
  lemma RecordedTotalIsPreTax(db: Db, userId: string, paymentIntentId: string, reply: IntentReply, now: Instant)
    requires CreatePaymentIntent(db, userId).IntentRequested?
    requires ProcessPaymentSuccess(db, Some(userId), paymentIntentId, reply, now).response.success
    ensures var p := Last(ProcessPaymentSuccess(db, Some(userId), paymentIntentId, reply, now).db.purchases);
            && CreatePaymentIntent(db, userId).amount == ChargeAmount(p.totalAmount)
            && (p.totalAmount >= 0 ==> p.totalAmount <= CreatePaymentIntent(db, userId).amount)
  {
  }

  // ----------------------------------------------------------------- receipt

  /** `PurchaseComplete`: the purchase with this id, shown only to its owner;
      anyone else, and an unknown id, gets `NotFound`. */
  function PurchaseComplete(db: Db, id: int, currentUser: Option<string>): (r: Option<Purchase>)
    ensures r.Some? ==> r.value in db.purchases && r.value.id == id && currentUser == Some(r.value.userId)
    ensures (forall k :: 0 <= k < |db.purchases| ==> db.purchases[k].id != id) ==> r.None?
  {
    match FirstIndex(db.purchases, (p: Purchase) => p.id == id)
    case None => None
    case Some(k) =>
      if currentUser == Some(db.purchases[k].userId) then Some(db.purchases[k]) else None
  }

  /** With distinct purchase ids, the receipt is shown exactly to the owner. */
  lemma PurchaseCompleteOwnerOnly(db: Db, k: nat, currentUser: Option<string>)
    requires PurchasesValid(db) && k < |db.purchases|
    ensures var p := db.purchases[k];
            PurchaseComplete(db, p.id, currentUser) == (if currentUser == Some(p.userId) then Some(p) else None)
  {
    var p := db.purchases[k];
    var j := FirstIndex(db.purchases, (q: Purchase) => q.id == p.id).value;
    assert j <= k && db.purchases[j].id == db.purchases[k].id;
    assert j == k;
  }

  /** Right after a confirmed payment the payer can open the receipt. */
  lemma ReceiptAfterPayment(db: Db, userId: string, paymentIntentId: string, reply: IntentReply, now: Instant)
    requires Valid(db)
    ensures var r := ProcessPaymentSuccess(db, Some(userId), paymentIntentId, reply, now);
            r.response.success ==>
              && PurchaseComplete(r.db, r.response.purchaseId.value, Some(userId)) == Some(Last(r.db.purchases))
              && forall other :: other != Some(userId) ==> PurchaseComplete(r.db, r.response.purchaseId.value, other).None?
  {
    var r := ProcessPaymentSuccess(db, Some(userId), paymentIntentId, reply, now);
    if r.response.success {
      ConfirmedPaymentClearsCart(db, userId, paymentIntentId, reply, now);
      PurchaseCompleteOwnerOnly(r.db, |r.db.purchases| - 1, Some(userId));
      forall other | other != Some(userId)
        ensures PurchaseComplete(r.db, r.response.purchaseId.value, other).None?
      {
        PurchaseCompleteOwnerOnly(r.db, |r.db.purchases| - 1, other);
      }
    }
  }
}

=== FILE: catalog.dfy ===
/** `MovieRespository.GetPaginedAsync`: the movie listing's search filter,
    sort-key selection and pagination. */
module Catalog {
  import opened Wrappers
  import opened Models
  import opened Text
  import opened Seqs
  import opened Sorting
  import opened Arith
  import opened Paging

  /** The orderings the `sortOrder switch` can select. There is no
      title-ascending ordering: the default arm sorts by title descending. */
  datatype SortKey = TitleDesc | DateAsc | DateDesc | PriceAsc | PriceDesc

  /** The `sortOrder switch` expression. */
  function SortKeyFor(sortOrder: Option<string>): (k: SortKey)
    ensures k == DateAsc <==> sortOrder == Some("Date")
    ensures k == DateDesc <==> sortOrder == Some("date_desc")
    ensures k == PriceAsc <==> sortOrder == Some("Price")
    ensures k == PriceDesc <==> sortOrder == Some("price_desc")
    ensures k == TitleDesc <==>
              sortOrder !in {Some("Date"), Some("date_desc"), Some("Price"), Some("price_desc")}
  {
    match sortOrder
    case Some("title_desc") => TitleDesc
    case Some("Date") => DateAsc
    case Some("date_desc") => DateDesc
    case Some("Price") => PriceAsc
    case Some("price_desc") => PriceDesc
    case _ => TitleDesc
  }

  /** The search predicate: the term occurs in the title, genre, description or director. */
  predicate Matches(m: Movie, term: string) {
    Contains(m.title, term) || ColumnContains(m.genre, term) || ColumnContains(m.description, term) || ColumnContains(m.director, term)
  }

  /** A null column matches no `LIKE` pattern. */
  predicate ColumnContains(column: Option<string>, term: string) {
    column.Some? && Contains(column.value, term)
  }

  function MatchesTerm(term: string): Movie -> bool {
    (m: Movie) => Matches(m, term)
  }

  /** The `Where` applied when the search term is neither null nor empty. */
  function Search(movies: seq<Movie>, searchTerm: Option<string>): (r: seq<Movie>)
    ensures |r| <= |movies|
    ensures IsNullOrEmpty(searchTerm) ==> r == movies
    ensures !IsNullOrEmpty(searchTerm) ==>
              && (forall k :: 0 <= k < |r| ==> r[k] in movies && Matches(r[k], searchTerm.value))
              && (forall k :: 0 <= k < |movies| && Matches(movies[k], searchTerm.value) ==> movies[k] in r)
  {
    if IsNullOrEmpty(searchTerm) then movies else Filter(movies, MatchesTerm(searchTerm.value))
  }

  /** `a` may precede `b` in the ordering `key` selects. */
  predicate InOrder(key: SortKey, a: Movie, b: Movie) {
    match key
    case TitleDesc => StrLeq(b.title, a.title)
    case DateAsc => a.releaseDate <= b.releaseDate
    case DateDesc => b.releaseDate <= a.releaseDate
    case PriceAsc => a.price <= b.price
    case PriceDesc => b.price <= a.price
  }

  function OrderFor(key: SortKey): (Movie, Movie) -> bool {
    (a: Movie, b: Movie) => InOrder(key, a, b)
  }

  lemma OrderForIsTotalPreorder(key: SortKey)
    ensures Total(OrderFor(key)) && Transitive(OrderFor(key))
  {
    var leq := OrderFor(key);
    forall a: Movie, b: Movie
      ensures leq(a, b) || leq(b, a)
    {
      StrLeqTotal(a.title, b.title);
    }
    forall a: Movie, b: Movie, c: Movie | leq(a, b) && leq(b, c)
      ensures leq(a, c)
    {
      if key == TitleDesc {
        StrLeqTransitive(c.title, b.title, a.title);
      }
    }
  }

  /** `OrderBy`/`OrderByDescending` on the selected key: a rearrangement of
      the rows, sorted by that key. */
  function OrderMovies(movies: seq<Movie>, key: SortKey): (r: seq<Movie>)
    ensures multiset(r) == multiset(movies)
    ensures Sorted(r, OrderFor(key))
  {
    OrderForIsTotalPreorder(key);
    SortBySorted(movies, OrderFor(key));
    SortBy(movies, OrderFor(key))
  }

  /** The filtered listing in the selected order, before it is cut into pages. */
  function Listing(movies: seq<Movie>, sortOrder: Option<string>, searchTerm: Option<string>): seq<Movie> {
    OrderMovies(Search(movies, searchTerm), SortKeyFor(sortOrder))
  }

  /** The page of the filtered, ordered listing that `GetPaginedAsync` returns:
      the rows of `Listing` from the (wrapped) offset on, or the store's
      refusal when that offset is negative. */
  function GetPagined(movies: seq<Movie>, pageIndex: int, pageSize: int, sortOrder: Option<string>, searchTerm: Option<string>)
    : (r: PageResult<Movie>)
    requires InInt32(pageIndex) && 1 <= pageSize <= Int32Max
    ensures r.NegativeOffset? <==> Offset(pageIndex, pageSize) < 0
    ensures r.Listed? ==> r.list.pageIndex == pageIndex
    ensures r.Listed? ==> r.list.totalPages == TotalPages(|Search(movies, searchTerm)|, pageSize)
    ensures r.Listed? ==>
              r.list.items == Page(Listing(movies, sortOrder, searchTerm), Offset(pageIndex, pageSize), pageSize)
    ensures r.Listed? ==> |r.list.items| <= pageSize
    ensures r.Listed? ==> forall k :: 0 <= k < |r.list.items| ==>
              r.list.items[k] in movies && (!IsNullOrEmpty(searchTerm) ==> Matches(r.list.items[k], searchTerm.value))
    ensures r.Listed? ==> Sorted(r.list.items, OrderFor(SortKeyFor(sortOrder)))
  {
    var r := Create(Listing(movies, sortOrder, searchTerm), pageIndex, pageSize);
    if r.Listed? then
      PageOfListing(movies, Offset(pageIndex, pageSize), pageSize, sortOrder, searchTerm);
      r
    else
      r
  }

  /** Any page cut from the listing holds matching catalog movies, in order. */
  lemma PageOfListing(movies: seq<Movie>, offset: int, pageSize: int, sortOrder: Option<string>, searchTerm: Option<string>)
    requires offset >= 0 && pageSize >= 1
    ensures var items := Page(Listing(movies, sortOrder, searchTerm), offset, pageSize);
            && (forall k :: 0 <= k < |items| ==>
                  items[k] in movies && (!IsNullOrEmpty(searchTerm) ==> Matches(items[k], searchTerm.value)))
            && Sorted(items, OrderFor(SortKeyFor(sortOrder)))
  {
    var found := Search(movies, searchTerm);
    var ordered := Listing(movies, sortOrder, searchTerm);
    var items := Page(ordered, offset, pageSize);
    forall k | 0 <= k < |items|
      ensures items[k] in found
    {
      assert items[k] in multiset(ordered);
    }
  }

  /** The rows of the listing pages `from` .. `from + count - 1`, one after
      the other, as `GetPagined` returns them. */
  function ListingPages(movies: seq<Movie>, pageSize: int, sortOrder: Option<string>, searchTerm: Option<string>,
                        from: int, count: nat): seq<Movie>
    requires Int32Min <= from && from + count <= Int32Max + 1 && 1 <= pageSize <= Int32Max
    decreases count
  {
    if count == 0 then []
    else RowsOf(GetPagined(movies, from, pageSize, sortOrder, searchTerm)) +
         ListingPages(movies, pageSize, sortOrder, searchTerm, from + 1, count - 1)
  }

  lemma {:induction false} ListingPagesArePages(movies: seq<Movie>, pageSize: int, sortOrder: Option<string>,
                                                searchTerm: Option<string>, from: int, count: nat)
    requires Int32Min <= from && from + count <= Int32Max + 1 && 1 <= pageSize <= Int32Max
    ensures ListingPages(movies, pageSize, sortOrder, searchTerm, from, count) ==
            Pages(Listing(movies, sortOrder, searchTerm), pageSize, from, count)
    decreases count
  {
    if count > 0 {
      ListingPagesArePages(movies, pageSize, sortOrder, searchTerm, from + 1, count - 1);
    }
  }

  /** Paging through a listing from page 1 to its last page shows every movie
      that matches the search exactly once, in the selected order, and the
      store refuses none of those pages. */
  lemma ListingPagesCoverSearch(movies: seq<Movie>, pageSize: int, sortOrder: Option<string>, searchTerm: Option<string>)
    requires 1 <= pageSize <= Int32Max && |movies| <= Int32Max
    ensures var found := Search(movies, searchTerm);
            var shown := ListingPages(movies, pageSize, sortOrder, searchTerm, 1, TotalPages(|found|, pageSize));
            && multiset(shown) == multiset(found)
            && Sorted(shown, OrderFor(SortKeyFor(sortOrder)))
    ensures forall p :: 1 <= p <= TotalPages(|Search(movies, searchTerm)|, pageSize) ==>
              GetPagined(movies, p, pageSize, sortOrder, searchTerm).Listed?
  {
    var ordered := Listing(movies, sortOrder, searchTerm);
    var t := TotalPages(|ordered|, pageSize);
    ListingPagesArePages(movies, pageSize, sortOrder, searchTerm, 1, t);
    PagesReassemble(ordered, pageSize);
  }

  /** With no search term the pages together are the whole catalog, each
      movie once, in the selected order. */
  lemma UnfilteredPagesCoverCatalog(movies: seq<Movie>, pageSize: int, sortOrder: Option<string>)
    requires 1 <= pageSize <= Int32Max && |movies| <= Int32Max
    ensures var shown := ListingPages(movies, pageSize, sortOrder, None, 1, TotalPages(|movies|, pageSize));
            && multiset(shown) == multiset(movies)
            && Sorted(shown, OrderFor(SortKeyFor(sortOrder)))
  {
    ListingPagesCoverSearch(movies, pageSize, sortOrder, None);
  }

  /** Every movie the search matches (every movie, without a term) is on
      one of the listing's pages. */
  lemma EveryMatchIsListed(movies: seq<Movie>, pageSize: int, sortOrder: Option<string>, searchTerm: Option<string>, m: Movie)
    requires 1 <= pageSize <= Int32Max && |movies| <= Int32Max
    requires m in movies && (IsNullOrEmpty(searchTerm) || Matches(m, searchTerm.value))
    ensures exists p :: 1 <= p <= TotalPages(|Search(movies, searchTerm)|, pageSize) &&
              m in RowsOf(GetPagined(movies, p, pageSize, sortOrder, searchTerm))
  {
    var found := Search(movies, searchTerm);
    var ordered := Listing(movies, sortOrder, searchTerm);
    var t := TotalPages(|found|, pageSize);
    assert m in found;
    assert m in multiset(ordered);
    PagesReassemble(ordered, pageSize);
    var p := OnSomePage(ordered, pageSize, 1, t, m);
    assert GetPagined(movies, p, pageSize, sortOrder, searchTerm) == Create(ordered, p, pageSize);
  }

  /** The title link's "title_desc" and the default listing order the same way. */
  lemma TitleDescIsTheDefault()
    ensures SortKeyFor(Some("title_desc")) == SortKeyFor(None) == SortKeyFor(Some("")) == TitleDesc
  {
  }
}

=== FILE: home_controller.dfy ===
/** The public catalog pages: the paged, searchable, sortable movie index and
    the player, which shows a trailer to anyone and the full video only to
    buyers and administrators. */
module HomeController {
  import opened Wrappers
  import opened Models
  import opened Text
  import opened Arith
  import opened Paging
  import opened Catalog
  import opened Repository
  import CartController

  // ------------------------------------------------------------------ index

  /** The sort orders the column headers link to. */
  datatype SortLinks = SortLinks(titleSort: string, dateSort: string, priceSort: string)

  /** Where each header leads: title always to title-descending, date and price
      to ascending unless that is the current order, then to descending. */
  function SortLinksFor(sortOrder: Option<string>): (r: SortLinks)
    ensures SortKeyFor(Some(r.titleSort)) == TitleDesc
    ensures SortKeyFor(Some(r.dateSort)) == if sortOrder == Some("Date") then DateDesc else DateAsc
    ensures SortKeyFor(Some(r.priceSort)) == if sortOrder == Some("Price") then PriceDesc else PriceAsc
  {
    SortLinks(
      if IsNullOrEmpty(sortOrder) then "title_desc" else "",
      if sortOrder == Some("Date") then "date_desc" else "Date",
      if sortOrder == Some("Price") then "price_desc" else "Price")
  }

  /** Clicking the date header twice returns to ascending order; likewise price. */
  lemma HeadersToggle(sortOrder: Option<string>)
    ensures SortLinksFor(Some(SortLinksFor(Some("Date")).dateSort)).dateSort == "Date"
    ensures SortLinksFor(Some(SortLinksFor(Some("Price")).priceSort)).priceSort == "Price"
    ensures SortKeyFor(Some(SortLinksFor(Some(SortLinksFor(sortOrder).dateSort)).dateSort)) != SortKeyFor(Some(SortLinksFor(sortOrder).dateSort))
  {
  }

  /** No header, and no other request, orders the catalog by ascending title. */
  lemma NoAscendingTitleOrder(sortOrder: Option<string>, a: Movie, b: Movie)
    requires StrLeq(a.title, b.title) && a.title != b.title
    ensures SortKeyFor(sortOrder) == TitleDesc ==> !InOrder(SortKeyFor(sortOrder), a, b)
  {
    if StrLeq(b.title, a.title) {
      StrLeqAntisymmetric(a.title, b.title);
    }
  }

  const PageSize: int := 6

  /** The search term and page actually used. */
  datatype ListingQuery = ListingQuery(searchTerm: Option<string>, pageIndex: int)

  /** A submitted search restarts at page 1; a page link carries the previous
      search back as `currentFilter`. Model binding turns an empty or blank
      `searchTerm` into null, so `Some` here is a non-blank term. */
  function NormaliseQuery(currentFilter: Option<string>, searchTerm: Option<string>, pageNumber: Option<int>): (q: ListingQuery)
    ensures searchTerm.Some? ==> q.searchTerm == searchTerm && q.pageIndex == 1
    ensures searchTerm.None? ==> q.searchTerm == currentFilter
    ensures searchTerm.None? && pageNumber.Some? ==> q.pageIndex == pageNumber.value
    ensures searchTerm.None? && pageNumber.None? ==> q.pageIndex == 1
  {
    if searchTerm.Some? then ListingQuery(searchTerm, 1)
    else ListingQuery(currentFilter, if pageNumber.Some? then pageNumber.value else 1)
  }

  datatype IndexPage =
    | Listing(page: PaginatedList<Movie>, links: SortLinks, currentSort: Option<string>, currentFilter: Option<string>)
      /** The page's offset, `(pageNumber - 1) * 6` in `int` arithmetic, is
          negative: the store rejects a negative skip with an error. */
    | NegativeOffset

  /** `Index`: six movies per page of the searched and ordered catalog. The
      bound page number is a C# `int`. */
  function Index(movies: seq<Movie>, sortOrder: Option<string>, currentFilter: Option<string>,
                 searchTerm: Option<string>, pageNumber: Option<int>): (r: IndexPage)
    requires pageNumber.Some? ==> InInt32(pageNumber.value)
    ensures r.NegativeOffset? <==> Offset(NormaliseQuery(currentFilter, searchTerm, pageNumber).pageIndex, PageSize) < 0
    ensures r.Listing? ==>
              var q := NormaliseQuery(currentFilter, searchTerm, pageNumber);
              && r.currentFilter == q.searchTerm
              && r.currentSort == sortOrder
              && r.links == SortLinksFor(sortOrder)
              && r.page.pageIndex == q.pageIndex
              && r.page.items == Page(Catalog.Listing(movies, sortOrder, q.searchTerm), Offset(q.pageIndex, PageSize), PageSize)
              && |r.page.items| <= PageSize
              && r.page.totalPages == TotalPages(|Search(movies, q.searchTerm)|, PageSize)
              && (forall k :: 0 <= k < |r.page.items| ==>
                    r.page.items[k] in movies && (!IsNullOrEmpty(q.searchTerm) ==> Matches(r.page.items[k], q.searchTerm.value)))
  {
    var q := NormaliseQuery(currentFilter, searchTerm, pageNumber);
    match GetPagined(movies, q.pageIndex, PageSize, sortOrder, q.searchTerm)
    case NegativeOffset => IndexPage.NegativeOffset
    case Listed(page) => Listing(page, SortLinksFor(sortOrder), sortOrder, q.searchTerm)
  }

  /** Page numbers 1 and up are listed, and so are all other numbers down to
      the point where `(pageNumber - 1) * 6` leaves the `int` range: from
      there on the wrapped offset decides. */
  lemma IndexRefusesExactlyThePagesBelowOne(movies: seq<Movie>, sortOrder: Option<string>, currentFilter: Option<string>,
                                            pageNumber: int)
    requires -357913940 <= pageNumber <= 357913942
    ensures Index(movies, sortOrder, currentFilter, None, Some(pageNumber)).NegativeOffset? <==> pageNumber < 1
  {
    OffsetWithoutWrap(pageNumber, PageSize);
  }

  /** Beyond that range the offset wraps: page 715827884 shows the third
      through eighth movies of the listing, and page 357913944 is refused
      although it is positive. */
  lemma {:induction false} IndexOffsetWraps(movies: seq<Movie>, sortOrder: Option<string>, currentFilter: Option<string>)
    ensures var r := Index(movies, sortOrder, currentFilter, None, Some(715827884));
            && r.Listing?
            && r.page.items == Page(Catalog.Listing(movies, sortOrder, currentFilter), 2, PageSize)
    ensures Index(movies, sortOrder, currentFilter, None, Some(357913944)).NegativeOffset?
  {
    OffsetWrapsAround();
  }

  /** Following a page link of a search result shows that page of the same
      search, in the same order. */
  lemma PageLinksKeepTheSearch(movies: seq<Movie>, sortOrder: Option<string>, currentFilter: Option<string>,
                               searchTerm: Option<string>, pageNumber: Option<int>, next: int)
    requires pageNumber.Some? ==> InInt32(pageNumber.value)
    requires InInt32(next)
    ensures var first := Index(movies, sortOrder, currentFilter, searchTerm, pageNumber);
            first.Listing? ==>
              var following := Index(movies, first.currentSort, first.currentFilter, None, Some(next));
              && (following.Listing? <==> GetPagined(movies, next, PageSize, sortOrder, first.currentFilter).Listed?)
              && (following.Listing? ==>
                    && following.page == GetPagined(movies, next, PageSize, sortOrder, first.currentFilter).list
                    && following.currentFilter == first.currentFilter)
  {
  }

  /** A new search always shows its first page, with no previous page. */
  lemma NewSearchStartsAtFirstPage(movies: seq<Movie>, sortOrder: Option<string>, currentFilter: Option<string>,
                                   term: string, pageNumber: Option<int>)
    requires pageNumber.Some? ==> InInt32(pageNumber.value)
    ensures var r := Index(movies, sortOrder, currentFilter, Some(term), pageNumber);
            && r.Listing?
            && r.page.pageIndex == 1
            && !r.page.HasPreviousPage()
            && r.currentFilter == Some(term)
  {
  }

  // ------------------------------------------------------------------- play

  predicate PurchaseIncludes(p: Purchase, movieId: int) {
    exists j :: 0 <= j < |p.items| && p.items[j].movieId == movieId
  }

  /** Some purchase of the signed-in user includes the movie. An anonymous
      visitor matches no purchase. */
  predicate HasPurchased(purchases: seq<Purchase>, userId: Option<string>, movieId: int) {
    userId.Some? && exists k :: 0 <= k < |purchases| && purchases[k].userId == userId.value && PurchaseIncludes(purchases[k], movieId)
  }

  const VideoUnavailable: string := "Video is currently unavailable. Please try again later."

  datatype PlayPage =
      /** `GetByIdAsync` throws `KeyNotFoundException` for an unknown id, so the
          action's `NotFound()` branch is never reached and the request fails. */
    | MovieLookupFault
    | Trailer(movie: Movie)
    | RedirectToDetails(movieId: int)
    | FullVideo(movie: Movie, videoError: Option<string>)
      /** Granted access to a movie with no video URL dereferences null. */
    | NullVideoUrl

  /** `Play`: the probe of a non-YouTube video URL is the parameter
      `videoReachable`. */
  function Play(db: Db, movieId: int, isTrailer: bool, userId: Option<string>, isAdmin: bool, videoReachable: bool)
    : (r: PlayPage)
    ensures r.MovieLookupFault? <==> !MovieExists(db.movies, movieId)
    ensures r.Trailer? <==> MovieExists(db.movies, movieId) && isTrailer
    ensures r.RedirectToDetails? <==>
              MovieExists(db.movies, movieId) && !isTrailer && !HasPurchased(db.purchases, userId, movieId) && !isAdmin
    ensures r.RedirectToDetails? ==> r.movieId == movieId
    ensures r.FullVideo? ==>
              && (HasPurchased(db.purchases, userId, movieId) || isAdmin)
              && r.movie.id == movieId && r.movie in db.movies
              && r.movie.videoUrl.Some?
              && (r.videoError.Some? <==> !Contains(r.movie.videoUrl.value, "youtube.com") && !videoReachable)
              && (r.videoError.Some? ==> r.videoError.value == VideoUnavailable)
    ensures r.Trailer? ==> r.movie.id == movieId && r.movie in db.movies
    ensures r.FullVideo? <==>
              && MovieExists(db.movies, movieId) && !isTrailer
              && (HasPurchased(db.purchases, userId, movieId) || isAdmin)
              && db.movies[FindMovie(db.movies, movieId).value].videoUrl.Some?
    ensures r.NullVideoUrl? <==>
              && MovieExists(db.movies, movieId) && !isTrailer
              && (HasPurchased(db.purchases, userId, movieId) || isAdmin)
              && db.movies[FindMovie(db.movies, movieId).value].videoUrl.None?
  {
    match FindMovie(db.movies, movieId)
    case None => MovieLookupFault
    case Some(i) =>
      var movie := db.movies[i];
      if isTrailer then Trailer(movie)
      else if !HasPurchased(db.purchases, userId, movieId) && !isAdmin then RedirectToDetails(movieId)
      else if movie.videoUrl.None? then NullVideoUrl
      else if !Contains(movie.videoUrl.value, "youtube.com") && !videoReachable then FullVideo(movie, Some(VideoUnavailable))
      else FullVideo(movie, None)
  }

  /** A visitor who is not signed in and not an administrator never gets past
      the trailer. */
  lemma AnonymousSeesOnlyTrailers(db: Db, movieId: int, isTrailer: bool, videoReachable: bool)
    ensures var r := Play(db, movieId, isTrailer, None, false, videoReachable);
            r.MovieLookupFault? || r.Trailer? || r.RedirectToDetails?
  {
  }

  /** After a confirmed payment the buyer may play every movie that was in the
      cart: the player shows the full video, or fails on the null URL of a
      movie that has none. */
  lemma PaymentGrantsPlay(db: Db, userId: string, paymentIntentId: string, reply: CartController.IntentReply,
                          now: Instant, k: nat, videoReachable: bool)
    requires k < |GetCartItems(db, userId)|
    ensures var step := CartController.ProcessPaymentSuccess(db, Some(userId), paymentIntentId, reply, now);
            var m := GetCartItems(db, userId)[k].item.movieId;
            var r := Play(step.db, m, false, Some(userId), false, videoReachable);
            step.response.success ==>
              && MovieExists(step.db.movies, m)
              && (r.FullVideo? <==> step.db.movies[FindMovie(step.db.movies, m).value].videoUrl.Some?)
              && (r.NullVideoUrl? <==> step.db.movies[FindMovie(step.db.movies, m).value].videoUrl.None?)
              && (r.FullVideo? ==> r.movie.id == m)
  {
    var step := CartController.ProcessPaymentSuccess(db, Some(userId), paymentIntentId, reply, now);
    if step.response.success {
      var lines := GetCartItems(db, userId);
      var m := lines[k].item.movieId;
      var p := step.db.purchases[|db.purchases|];
      assert step.db.movies == db.movies;
      assert p.items == ItemsOf(lines);
      assert p.items[k].movieId == m;
      assert PurchaseIncludes(p, m);
      assert HasPurchased(step.db.purchases, Some(userId), m);
    }
  }

  /** Access never lapses: a purchase stays in the table whatever is added
      after it. */
  lemma PurchasesOnlyGrowAccess(db: Db, later: seq<Purchase>, userId: Option<string>, movieId: int)
    ensures HasPurchased(db.purchases, userId, movieId) ==> HasPurchased(db.purchases + later, userId, movieId)
  {
    if HasPurchased(db.purchases, userId, movieId) {
      var k :| 0 <= k < |db.purchases| && db.purchases[k].userId == userId.value && PurchaseIncludes(db.purchases[k], movieId);
      assert (db.purchases + later)[k] == db.purchases[k];
    }
  }
}

=== FILE: models.dfy ===
/** The entities of the movie store (MovieAppProject/Models) and the store
    that holds them (MovieDbContext). Navigation properties become ids;
    every `decimal(18,2)` money column becomes a whole number of hundredths. */
module Models {
  import opened Wrappers

  /** A `decimal(18,2)` amount as an exact count of hundredths (dirhams for QAR). */
  type Cents = int

  /** A `DateTime` stamp; clocks are parameters of the operations that read them. */
  type Instant = int

  /** Columns without `[Required]` may hold null. */
  datatype Movie = Movie(
    id: int,
    title: string,
    description: Option<string>,
    releaseDate: Instant,
    price: Cents,
    genre: Option<string>,
    director: Option<string>,
    rating: real,
    imageUrl: Option<string>,
    videoUrl: Option<string>,
    durationMinutes: int)

  /** A row of `CartItems`: one user's pending purchase of one movie. */
  datatype CartItem = CartItem(id: int, movieId: int, userId: string, addedDate: Instant, quantity: int)

  /** A row of `WishlistItems`. */
  datatype WishlistItem = WishlistItem(id: int, addedDate: Instant, movieId: int, userId: string)

  /** A purchase line; its price is a snapshot taken at checkout. */
  datatype PurchaseItem = PurchaseItem(priceAtPurchase: Cents, quantity: int, movieId: int)

  /** `PurchaseItem.Quantity`'s initialiser. */
  const DefaultPurchaseQuantity: int := 1

  datatype Purchase = Purchase(
    id: int,
    purchaseDate: Instant,
    totalAmount: Cents,
    userId: string,
    paymentIntentId: string,
    paymentStatus: string,
    items: seq<PurchaseItem>)

  datatype Review = Review(id: int, content: string, rating: int, reviewDate: Instant, movieId: int, userId: string)

  /** A row of the movie/actor link table, keyed by (MovieId, ActorId). */
  datatype MovieActor = MovieActor(characterName: Option<string>, movieId: int, actorId: int)

  datatype Actor = Actor(id: int, name: string, bio: Option<string>, dateOfBirth: Instant, imageUrl: Option<string>)

  /** The tables the core reads and writes. Identity values come from one
      counter, `nextId`: only their freshness matters to the model. */
  datatype Db = Db(
    movies: seq<Movie>,
    carts: seq<CartItem>,
    wishlist: seq<WishlistItem>,
    purchases: seq<Purchase>,
    reviews: seq<Review>,
    nextId: nat)
}

=== FILE: paging.dfy ===
/** `PaginatedList<T>`: a page of a query result plus the page-count
    arithmetic the views use for their previous/next links. */
module Paging {
  import opened Arith

  function Min(a: int, b: int): int {
    if a <= b then a else b
  }

  /** Number of rows the query skips before page `pageIndex`:
      `(pageIndex - 1) * pageSize` evaluated in unchecked C# `int`
      arithmetic, so a large page number wraps around 2^32. Wrapping the
      difference first and then the product gives the same value, because
      both agree with the exact product modulo 2^32. */
  function Offset(pageIndex: int, pageSize: int): (r: int)
    requires InInt32(pageIndex) && InInt32(pageSize)
    ensures InInt32(r)
    ensures InInt32((pageIndex - 1) * pageSize) ==> r == (pageIndex - 1) * pageSize
  {
    Wrap32((pageIndex - 1) * pageSize)
  }

  /** The offset differs from the exact product by a multiple of 2^32. */
  lemma OffsetIsCongruent(pageIndex: int, pageSize: int)
    requires InInt32(pageIndex) && InInt32(pageSize)
    ensures ((pageIndex - 1) * pageSize - Offset(pageIndex, pageSize)) % 0x1_0000_0000 == 0
  {
    Wrap32Congruent((pageIndex - 1) * pageSize);
  }

  /** The exact number of rows before page `pageIndex`, for pages from 1 on. */
  function SkipCount(pageIndex: int, pageSize: int): (r: nat)
    requires pageIndex >= 1 && pageSize >= 1
    ensures r == (pageIndex - 1) * pageSize
  {
    MulNonNegative(pageIndex - 1, pageSize);
    (pageIndex - 1) * pageSize
  }

  /** Away from overflow the offset is the plain product, and it is
      non-negative exactly for the pages from 1 on. */
  lemma OffsetWithoutWrap(pageIndex: int, pageSize: int)
    requires InInt32(pageIndex) && 1 <= pageSize <= Int32Max
    requires (pageIndex - 1) * pageSize <= Int32Max
    requires (pageIndex - 1) * pageSize >= Int32Min
    ensures Offset(pageIndex, pageSize) == (pageIndex - 1) * pageSize
    ensures Offset(pageIndex, pageSize) >= 0 <==> pageIndex >= 1
  {
    if pageIndex >= 1 {
      MulNonNegative(pageIndex - 1, pageSize);
    } else {
      MulMonotone(pageIndex - 1, -1, pageSize);
    }
  }

  /** Page numbers far enough out make the offset wrap: a large positive
      page can land back inside the result, or on a negative offset. */
  lemma {:induction false} OffsetWrapsAround()
    ensures Offset(715827884, 6) == 2
    ensures Offset(357913944, 6) < 0
    ensures Offset(3, 0x4000_0000) == Int32Min
  {
    assert (715827884 - 1) * 6 == 0x1_0000_0002;
    assert (357913944 - 1) * 6 == 0x8000_000A;
    assert (3 - 1) * 0x4000_0000 == 0x8000_0000;
  }

  lemma CeilDivFacts(count: nat, pageSize: nat)
    requires pageSize >= 1
    ensures ((count + pageSize - 1) / pageSize) * pageSize >= count
    ensures (count + pageSize - 1) / pageSize > 0 ==> ((count + pageSize - 1) / pageSize - 1) * pageSize < count
    ensures 0 <= (count + pageSize - 1) / pageSize <= count
  {
    var n := count + pageSize - 1;
    var q := n / pageSize;
    var m := n % pageSize;
    assert n == q * pageSize + m;
    assert (q - 1) * pageSize == q * pageSize - pageSize;
    if q > 0 {
      MulMonotone(1, pageSize, q - 1);
    }
  }

  /** `Math.Ceiling(count / (double)pageSize)`: the least number of pages of
      `pageSize` rows that hold `count` rows. */
  function TotalPages(count: nat, pageSize: nat): (r: nat)
    requires pageSize >= 1
    ensures r <= count
    ensures count > 0 ==> r > 0
  {
    CeilDivFacts(count, pageSize);
    (count + pageSize - 1) / pageSize
  }

  /** `TotalPages` pages hold all `count` rows, and the last of them is not empty. */
  lemma TotalPagesIsCeiling(count: nat, pageSize: nat)
    requires pageSize >= 1
    ensures TotalPages(count, pageSize) * pageSize >= count
    ensures TotalPages(count, pageSize) > 0 ==> (TotalPages(count, pageSize) - 1) * pageSize < count
  {
    CeilDivFacts(count, pageSize);
  }

  /** `TotalPages` is the ceiling of `count / pageSize`: no smaller page count suffices. */
  lemma TotalPagesIsLeast(count: nat, pageSize: nat, k: nat)
    requires pageSize >= 1
    requires k * pageSize >= count
    ensures TotalPages(count, pageSize) <= k
  {
    var t := TotalPages(count, pageSize);
    TotalPagesIsCeiling(count, pageSize);
    if t > k {
      MulMonotone(k, t - 1, pageSize);
    }
  }

  /** `source.Skip(offset).Take(pageSize)` for a non-negative offset: the
      rows from position `offset` on, at most `pageSize` of them. */
  function Page<T>(source: seq<T>, offset: int, pageSize: int): (r: seq<T>)
    requires offset >= 0 && pageSize >= 1
    ensures offset >= |source| ==> r == []
    ensures offset < |source| ==> |r| == Min(pageSize, |source| - offset)
    ensures forall k :: 0 <= k < |r| ==> offset + k < |source| && r[k] == source[offset + k]
  {
    var lo := Min(offset, |source|);
    var hi := Min(lo + pageSize, |source|);
    source[lo..hi]
  }

  datatype PaginatedList<T> = PaginatedList(items: seq<T>, pageIndex: int, totalPages: nat)
  {
    predicate HasPreviousPage() {
      pageIndex > 1
    }

    predicate HasNextPage() {
      pageIndex < totalPages
    }
  }

  /** What `CreateAysnc` produces: the page, or the store's refusal of a
      negative `Skip` count. */
  datatype PageResult<T> = Listed(list: PaginatedList<T>) | NegativeOffset

  /** `PaginatedList<T>.CreateAysnc`: count the source, then cut out one page
      at the (wrapped) offset. */
  function Create<T>(source: seq<T>, pageIndex: int, pageSize: int): (r: PageResult<T>)
    requires InInt32(pageIndex) && 1 <= pageSize <= Int32Max
    ensures r.NegativeOffset? <==> Offset(pageIndex, pageSize) < 0
    ensures r.Listed? ==> r.list.pageIndex == pageIndex
    ensures r.Listed? ==> r.list.totalPages == TotalPages(|source|, pageSize)
    ensures r.Listed? ==> r.list.items == Page(source, Offset(pageIndex, pageSize), pageSize)
  {
    var offset := Offset(pageIndex, pageSize);
    if offset < 0 then
      NegativeOffset
    else
      Listed(PaginatedList(Page(source, offset, pageSize), pageIndex, TotalPages(|source|, pageSize)))
  }

  /** The previous/next links of a listed page: "previous" from page 2 on,
      "next" exactly when rows remain past this page, and a page with a
      successor is a full one. */
  lemma CreateLinks<T>(source: seq<T>, pageIndex: int, pageSize: int)
    requires InInt32(pageIndex) && 1 <= pageSize <= Int32Max
    requires Create(source, pageIndex, pageSize).Listed?
    ensures Create(source, pageIndex, pageSize).list.HasPreviousPage() <==> pageIndex > 1
    ensures Create(source, pageIndex, pageSize).list.HasNextPage() <==> pageIndex * pageSize < |source|
    ensures |source| == 0 ==> Create(source, pageIndex, pageSize).list.totalPages == 0 &&
                              Create(source, pageIndex, pageSize).list.items == []
    ensures Create(source, pageIndex, pageSize).list.HasNextPage() && pageIndex >= 1 && |source| <= Int32Max ==>
              |Create(source, pageIndex, pageSize).list.items| == pageSize
  {
    NextPageExists(|source|, pageIndex, pageSize);
    FullPageBeforeEnd(source, pageIndex, pageSize);
  }

  /** A page with a successor is full, as long as the offset has not wrapped. */
  lemma FullPageBeforeEnd<T>(source: seq<T>, pageIndex: int, pageSize: int)
    requires InInt32(pageIndex) && 1 <= pageSize <= Int32Max
    requires Offset(pageIndex, pageSize) >= 0
    ensures pageIndex >= 1 && pageIndex * pageSize < |source| <= Int32Max ==>
              |Page(source, Offset(pageIndex, pageSize), pageSize)| == pageSize
  {
    if pageIndex >= 1 && pageIndex * pageSize < |source| <= Int32Max {
      NoWrapBeforeEnd(|source|, pageIndex, pageSize);
      assert (pageIndex - 1) * pageSize + pageSize == pageIndex * pageSize;
    }
  }

  /** A page that starts before the end of an `int`-counted source does not wrap. */
  lemma NoWrapBeforeEnd(count: nat, pageIndex: int, pageSize: int)
    requires InInt32(pageIndex) && 1 <= pageSize <= Int32Max
    ensures pageIndex >= 1 && pageIndex * pageSize < count <= Int32Max ==>
              Offset(pageIndex, pageSize) == (pageIndex - 1) * pageSize
  {
    if pageIndex >= 1 && pageIndex * pageSize < count <= Int32Max {
      MulNonNegative(pageIndex - 1, pageSize);
      OffsetWithoutWrap(pageIndex, pageSize);
    }
  }

  /** A later page exists exactly when this page's last slot is followed by more rows. */
  lemma NextPageExists(count: nat, pageIndex: int, pageSize: int)
    requires pageSize >= 1
    ensures pageIndex < TotalPages(count, pageSize) <==> pageIndex * pageSize < count
  {
    var t := TotalPages(count, pageSize);
    TotalPagesIsCeiling(count, pageSize);
    if pageIndex < 1 {
      MulMonotone(pageIndex, 0, pageSize);
    } else if pageIndex < t {
      MulMonotone(pageIndex, t - 1, pageSize);
    } else {
      MulMonotone(t, pageIndex, pageSize);
    }
  }

  /** The rows of a page `Create` returns; nothing for a refused one. */
  function RowsOf<T>(r: PageResult<T>): seq<T> {
    if r.Listed? then r.list.items else []
  }

  /** The `count` consecutive pages `Create` returns from page `from` on, one
      after the other. */
  function Pages<T>(source: seq<T>, pageSize: int, from: int, count: nat): seq<T>
    requires Int32Min <= from && from + count <= Int32Max + 1 && 1 <= pageSize <= Int32Max
    decreases count
  {
    if count == 0 then [] else RowsOf(Create(source, from, pageSize)) + Pages(source, pageSize, from + 1, count - 1)
  }

  lemma {:induction false} PagesFromCoverSuffix<T>(source: seq<T>, pageSize: int, from: int)
    requires 1 <= pageSize <= Int32Max && |source| <= Int32Max
    requires 1 <= from <= TotalPages(|source|, pageSize) + 1
    ensures Pages(source, pageSize, from, TotalPages(|source|, pageSize) + 1 - from) ==
            source[Min(SkipCount(from, pageSize), |source|)..]
    decreases TotalPages(|source|, pageSize) + 1 - from
  {
    if from <= TotalPages(|source|, pageSize) {
      PagesFromCoverSuffix(source, pageSize, from + 1);
      SuffixStep(source, pageSize, from);
    } else {
      OffsetFacts(|source|, pageSize, from);
    }
  }

  /** One page in front of the rows after it gives the rows from its start. */
  lemma SuffixStep<T>(source: seq<T>, pageSize: int, from: int)
    requires 1 <= pageSize <= Int32Max && |source| <= Int32Max
    requires 1 <= from <= TotalPages(|source|, pageSize)
    requires Pages(source, pageSize, from + 1, TotalPages(|source|, pageSize) - from) ==
             source[Min(SkipCount(from + 1, pageSize), |source|)..]
    ensures Pages(source, pageSize, from, TotalPages(|source|, pageSize) + 1 - from) ==
            source[Min(SkipCount(from, pageSize), |source|)..]
  {
    var lo, hi := PageBeforeEnd(source, pageSize, from);
    assert source[lo..] == source[lo..hi] + source[hi..];
  }

  /** A page up to `TotalPages` is listed and holds the rows from its exact
      offset to the next page's offset (or the end). */
  lemma PageBeforeEnd<T>(source: seq<T>, pageSize: int, from: int) returns (lo: int, hi: int)
    requires 1 <= pageSize <= Int32Max && |source| <= Int32Max
    requires 1 <= from <= TotalPages(|source|, pageSize)
    ensures lo == SkipCount(from, pageSize) && hi == Min(SkipCount(from + 1, pageSize), |source|)
    ensures 0 <= lo <= hi <= |source|
    ensures Create(source, from, pageSize).Listed?
    ensures RowsOf(Create(source, from, pageSize)) == source[lo..hi]
  {
    OffsetFacts(|source|, pageSize, from);
    lo := SkipCount(from, pageSize);
    hi := Min(SkipCount(from + 1, pageSize), |source|);
    OffsetWithoutWrap(from, pageSize);
  }

  /** Where page `from` starts relative to the end of `count` rows. */
  lemma OffsetFacts(count: nat, pageSize: int, from: int)
    requires pageSize >= 1
    requires 1 <= from <= TotalPages(count, pageSize) + 1
    ensures SkipCount(from + 1, pageSize) == SkipCount(from, pageSize) + pageSize
    ensures from <= TotalPages(count, pageSize) ==> SkipCount(from, pageSize) < count
    ensures from == TotalPages(count, pageSize) + 1 ==> SkipCount(from, pageSize) >= count
  {
    var t := TotalPages(count, pageSize);
    TotalPagesIsCeiling(count, pageSize);
    MulNonNegative(from - 1, pageSize);
    if from <= t {
      MulMonotone(from - 1, t - 1, pageSize);
    }
  }

  /** Walking the pages `Create` returns for 1 through `TotalPages`
      reproduces the whole source, in order, and none of them is refused. */
  lemma PagesReassemble<T>(source: seq<T>, pageSize: int)
    requires 1 <= pageSize <= Int32Max && |source| <= Int32Max
    ensures TotalPages(|source|, pageSize) <= Int32Max
    ensures Pages(source, pageSize, 1, TotalPages(|source|, pageSize)) == source
    ensures forall p :: 1 <= p <= TotalPages(|source|, pageSize) ==> Create(source, p, pageSize).Listed?
  {
    PagesFromCoverSuffix(source, pageSize, 1);
    forall p | 1 <= p <= TotalPages(|source|, pageSize)
      ensures Create(source, p, pageSize).Listed?
    {
      var _, _ := PageBeforeEnd(source, pageSize, p);
    }
  }

  /** Every row of a run of pages is on one of them: `p` names that page. */
  lemma {:induction false} OnSomePage<T>(source: seq<T>, pageSize: int, from: int, count: nat, x: T)
    returns (p: int)
    requires Int32Min <= from && from + count <= Int32Max + 1 && 1 <= pageSize <= Int32Max
    requires x in Pages(source, pageSize, from, count)
    ensures from <= p < from + count && x in RowsOf(Create(source, p, pageSize))
    decreases count
  {
    var here := RowsOf(Create(source, from, pageSize));
    assert Pages(source, pageSize, from, count) == here + Pages(source, pageSize, from + 1, count - 1);
    if x in here {
      p := from;
    } else {
      p := OnSomePage(source, pageSize, from + 1, count - 1, x);
    }
  }
}

=== FILE: repository.dfy ===
/** MovieRespository: the per-user cart, wishlist and purchase tables and the
    transitions the controllers make on them. Each function is one request's
    unit of work, ending in one `SaveChangesAsync`. */
module Repository {
  import opened Wrappers
  import opened Models
  import opened Seqs
  import opened Arith

  /** Why `SaveChangesAsync` or the repository itself throws. */
  datatype StoreError =
    | ForeignKeyViolation // a new row names a MovieId with no movie
    | CartIsEmpty         // InvalidOperationException("Cart is empty.")

  // ---------------------------------------------------------------- lookups

  function FindMovie(movies: seq<Movie>, id: int): Option<nat> {
    FirstIndex(movies, (m: Movie) => m.id == id)
  }

  predicate MovieExists(movies: seq<Movie>, id: int) {
    FindMovie(movies, id).Some?
  }

  /** `Movie.Price` of the movie a row refers to, as `Include(c => c.Movie)` loads it. */
  function PriceOf(movies: seq<Movie>, id: int): Cents {
    match FindMovie(movies, id)
    case Some(j) => movies[j].price
    case None => 0
  }

  predicate IsCartOf(c: CartItem, userId: string, movieId: int) {
    c.userId == userId && c.movieId == movieId
  }

  predicate IsWishOf(w: WishlistItem, userId: string, movieId: int) {
    w.userId == userId && w.movieId == movieId
  }

  /** The row `FirstOrDefaultAsync(c => c.UserId == userId && c.MovieId == movieId)` finds. */
  function FindCartItem(carts: seq<CartItem>, userId: string, movieId: int): Option<nat> {
    FirstIndex(carts, (c: CartItem) => IsCartOf(c, userId, movieId))
  }

  function FindWishlistItem(wishlist: seq<WishlistItem>, userId: string, movieId: int): Option<nat> {
    FirstIndex(wishlist, (w: WishlistItem) => IsWishOf(w, userId, movieId))
  }

  // ------------------------------------------------------------ invariants

  /** No two different positions hold rows related by `clash`. */
  predicate Pairwise<T>(s: seq<T>, clash: (T, T) -> bool) {
    forall i, j :: 0 <= i < j < |s| ==> !clash(s[i], s[j])
  }

  predicate CartClash(a: CartItem, b: CartItem) {
    a.id == b.id || (a.userId == b.userId && a.movieId == b.movieId)
  }

  predicate WishClash(a: WishlistItem, b: WishlistItem) {
    a.id == b.id || (a.userId == b.userId && a.movieId == b.movieId)
  }

  /** Cart rows: at most one per (user, movie), distinct fresh ids, a positive
      quantity, and an existing movie (the foreign key). */
  predicate CartsValid(db: Db) {
    && Pairwise(db.carts, CartClash)
    && forall k :: 0 <= k < |db.carts| ==>
         && db.carts[k].quantity >= 1
         && db.carts[k].id < db.nextId
         && MovieExists(db.movies, db.carts[k].movieId)
  }

  predicate WishlistValid(db: Db) {
    && Pairwise(db.wishlist, WishClash)
    && forall k :: 0 <= k < |db.wishlist| ==>
         db.wishlist[k].id < db.nextId && MovieExists(db.movies, db.wishlist[k].movieId)
  }

  predicate PurchasesValid(db: Db) {
    && Pairwise(db.purchases, (a: Purchase, b: Purchase) => a.id == b.id)
    && forall k :: 0 <= k < |db.purchases| ==> db.purchases[k].id < db.nextId
  }

  predicate ReviewsValid(db: Db) {
    && Pairwise(db.reviews, (a: Review, b: Review) => a.id == b.id)
    && forall k :: 0 <= k < |db.reviews| ==>
         db.reviews[k].id < db.nextId && MovieExists(db.movies, db.reviews[k].movieId)
  }

  /** What sequential requests keep true of the store. */
  predicate Valid(db: Db) {
    CartsValid(db) && WishlistValid(db) && PurchasesValid(db) && ReviewsValid(db)
  }

  lemma {:induction false} FilterPairwise<T>(s: seq<T>, p: T -> bool, clash: (T, T) -> bool)
    requires Pairwise(s, clash)
    ensures Pairwise(Filter(s, p), clash)
    decreases |s|
  {
    if |s| > 0 {
      assert Pairwise(s[1..], clash) by {
        forall i, j | 0 <= i < j < |s[1..]|
          ensures !clash(s[1..][i], s[1..][j])
        {
          assert s[1..][i] == s[i + 1] && s[1..][j] == s[j + 1];
        }
      }
      FilterPairwise(s[1..], p, clash);
      var rest := Filter(s[1..], p);
      if p(s[0]) {
        assert Filter(s, p) == [s[0]] + rest;
        forall j | 0 <= j < |rest|
          ensures !clash(s[0], rest[j])
        {
          var k :| 0 <= k < |s[1..]| && s[1..][k] == rest[j];
          assert s[k + 1] == rest[j];
        }
        ConsPairwise(s[0], rest, clash);
      } else {
        assert Filter(s, p) == rest;
      }
    }
  }

  lemma ConsPairwise<T>(x: T, rest: seq<T>, clash: (T, T) -> bool)
    requires Pairwise(rest, clash)
    requires forall j :: 0 <= j < |rest| ==> !clash(x, rest[j])
    ensures Pairwise([x] + rest, clash)
  {
    var r := [x] + rest;
    forall i, j | 0 <= i < j < |r|
      ensures !clash(r[i], r[j])
    {
      assert r[j] == rest[j - 1];
      if i > 0 {
        assert r[i] == rest[i - 1];
      }
    }
  }

  /** Under the cart invariant a row is identified by its id. */
  lemma CartIdIdentifiesRow(db: Db, a: CartItem, b: CartItem)
    requires CartsValid(db)
    requires a in db.carts && b in db.carts && a.id == b.id
    ensures a == b
  {
    var i :| 0 <= i < |db.carts| && db.carts[i] == a;
    var j :| 0 <= j < |db.carts| && db.carts[j] == b;
    if i < j {
      assert CartClash(db.carts[i], db.carts[j]);
    } else if j < i {
      assert CartClash(db.carts[j], db.carts[i]);
    }
  }

  // ------------------------------------------------------------------ cart

  /** `AddMovieToCartAsync`: bump the quantity of an existing (user, movie)
      row, or insert one with quantity 1. */
  function AddMovieToCart(db: Db, userId: string, movieId: int, now: Instant): (r: Result<Db, StoreError>)
    ensures r.Failure? <==> FindCartItem(db.carts, userId, movieId).None? && !MovieExists(db.movies, movieId)
    ensures r.Failure? ==> r.error == ForeignKeyViolation
    ensures r.Success? ==> r.value.(carts := db.carts, nextId := db.nextId) == db
    ensures FindCartItem(db.carts, userId, movieId).Some? ==>
              var i := FindCartItem(db.carts, userId, movieId).value;
              && r.Success?
              && r.value.nextId == db.nextId
              && |r.value.carts| == |db.carts|
              && r.value.carts[i] == db.carts[i].(quantity := db.carts[i].quantity + 1)
              && forall k :: 0 <= k < |db.carts| && k != i ==> r.value.carts[k] == db.carts[k]
    ensures FindCartItem(db.carts, userId, movieId).None? && r.Success? ==>
              && r.value.carts == db.carts + [CartItem(db.nextId, movieId, userId, now, 1)]
              && r.value.nextId == db.nextId + 1
  {
    match FindCartItem(db.carts, userId, movieId)
    case Some(i) =>
      Success(db.(carts := db.carts[i := db.carts[i].(quantity := db.carts[i].quantity + 1)]))
    case None =>
      if !MovieExists(db.movies, movieId) then Failure(ForeignKeyViolation)
      else Success(db.(carts := db.carts + [CartItem(db.nextId, movieId, userId, now, 1)], nextId := db.nextId + 1))
  }

  /** `RemoveFromCartAsync`: decrement a quantity above 1, otherwise delete the
      row; nothing happens when the pair has no row. */
  function RemoveFromCart(db: Db, userId: string, movieId: int): (r: Db)
    ensures r.(carts := db.carts) == db
    ensures FindCartItem(db.carts, userId, movieId).None? ==> r == db
    ensures FindCartItem(db.carts, userId, movieId).Some? ==>
              var i := FindCartItem(db.carts, userId, movieId).value;
              if db.carts[i].quantity > 1 then
                && |r.carts| == |db.carts|
                && r.carts[i] == db.carts[i].(quantity := db.carts[i].quantity - 1)
                && forall k :: 0 <= k < |db.carts| && k != i ==> r.carts[k] == db.carts[k]
              else
                r.carts == RemoveAt(db.carts, i)
  {
    match FindCartItem(db.carts, userId, movieId)
    case None => db
    case Some(i) =>
      if db.carts[i].quantity > 1 then
        db.(carts := db.carts[i := db.carts[i].(quantity := db.carts[i].quantity - 1)])
      else
        db.(carts := RemoveAt(db.carts, i))
  }

  /** Total quantity the store records for one (user, movie) pair. */
  function QuantityOf(carts: seq<CartItem>, userId: string, movieId: int): int {
    SumOf(carts, (c: CartItem) => if IsCartOf(c, userId, movieId) then c.quantity else 0)
  }

  /** Under the invariant the pair's quantity is its one row's quantity, or 0. */
  lemma QuantityOfRow(db: Db, userId: string, movieId: int)
    requires CartsValid(db)
    ensures FindCartItem(db.carts, userId, movieId).None? ==> QuantityOf(db.carts, userId, movieId) == 0
    ensures FindCartItem(db.carts, userId, movieId).Some? ==>
              QuantityOf(db.carts, userId, movieId) == db.carts[FindCartItem(db.carts, userId, movieId).value].quantity
  {
    var f := (c: CartItem) => if IsCartOf(c, userId, movieId) then c.quantity else 0;
    match FindCartItem(db.carts, userId, movieId)
    case None =>
      SumOfZero(db.carts, f);
    case Some(i) =>
      var rest := RemoveAt(db.carts, i);
      forall k | 0 <= k < |rest|
        ensures f(rest[k]) == 0
      {
        if k >= i {
          assert !CartClash(db.carts[i], db.carts[k + 1]);
        }
      }
      SumOfZero(rest, f);
      SumOfRemoveAt(db.carts, i, f);
  }

  /** Adding raises the pair's quantity by exactly one and leaves every other
      pair's quantity, other users' included, as it was. */
  lemma AddMovieToCartQuantities(db: Db, userId: string, movieId: int, now: Instant)
    ensures AddMovieToCart(db, userId, movieId, now).Success? ==>
              var after := AddMovieToCart(db, userId, movieId, now).value.carts;
              && QuantityOf(after, userId, movieId) == QuantityOf(db.carts, userId, movieId) + 1
              && forall u, m :: (u != userId || m != movieId) ==>
                   QuantityOf(after, u, m) == QuantityOf(db.carts, u, m)
  {
    var r := AddMovieToCart(db, userId, movieId, now);
    if r.Success? {
      var after := r.value.carts;
      match FindCartItem(db.carts, userId, movieId)
      case Some(i) =>
        var row := db.carts[i].(quantity := db.carts[i].quantity + 1);
        assert after == db.carts[i := row];
        SumOfUpdate(db.carts, i, row, (c: CartItem) => if IsCartOf(c, userId, movieId) then c.quantity else 0);
        forall u, m | u != userId || m != movieId
          ensures QuantityOf(after, u, m) == QuantityOf(db.carts, u, m)
        {
          SumOfUpdate(db.carts, i, row, (c: CartItem) => if IsCartOf(c, u, m) then c.quantity else 0);
        }
      case None =>
        var row := CartItem(db.nextId, movieId, userId, now, 1);
        SumOfAppend(db.carts, [row], (c: CartItem) => if IsCartOf(c, userId, movieId) then c.quantity else 0);
        forall u, m | u != userId || m != movieId
          ensures QuantityOf(after, u, m) == QuantityOf(db.carts, u, m)
        {
          SumOfAppend(db.carts, [row], (c: CartItem) => if IsCartOf(c, u, m) then c.quantity else 0);
        }
    }
  }

  /** Removing lowers a present pair's quantity by one (to 0 when it was 1),
      leaves an absent pair at 0, and touches no other pair. */
  lemma RemoveFromCartQuantities(db: Db, userId: string, movieId: int)
    requires CartsValid(db)
    ensures var before := QuantityOf(db.carts, userId, movieId);
            QuantityOf(RemoveFromCart(db, userId, movieId).carts, userId, movieId) ==
              if before > 0 then before - 1 else 0
    ensures forall u, m :: (u != userId || m != movieId) ==>
              QuantityOf(RemoveFromCart(db, userId, movieId).carts, u, m) == QuantityOf(db.carts, u, m)
  {
    QuantityOfRow(db, userId, movieId);
    var after := RemoveFromCart(db, userId, movieId).carts;
    match FindCartItem(db.carts, userId, movieId)
    case None =>
    case Some(i) =>
      if db.carts[i].quantity > 1 {
        var row := db.carts[i].(quantity := db.carts[i].quantity - 1);
        assert after == db.carts[i := row];
        SumOfUpdate(db.carts, i, row, (c: CartItem) => if IsCartOf(c, userId, movieId) then c.quantity else 0);
        forall u, m | u != userId || m != movieId
          ensures QuantityOf(after, u, m) == QuantityOf(db.carts, u, m)
        {
          SumOfUpdate(db.carts, i, row, (c: CartItem) => if IsCartOf(c, u, m) then c.quantity else 0);
        }
      } else {
        SumOfRemoveAt(db.carts, i, (c: CartItem) => if IsCartOf(c, userId, movieId) then c.quantity else 0);
        forall u, m | u != userId || m != movieId
          ensures QuantityOf(after, u, m) == QuantityOf(db.carts, u, m)
        {
          SumOfRemoveAt(db.carts, i, (c: CartItem) => if IsCartOf(c, u, m) then c.quantity else 0);
        }
      }
  }

  lemma AddMovieToCartPreservesValid(db: Db, userId: string, movieId: int, now: Instant)
    requires Valid(db)
    ensures AddMovieToCart(db, userId, movieId, now).Success? ==>
              Valid(AddMovieToCart(db, userId, movieId, now).value)
  {
    if AddMovieToCart(db, userId, movieId, now).Success? {
      match FindCartItem(db.carts, userId, movieId)
      case Some(i) => IncrementPreservesValid(db, userId, movieId, now, i);
      case None => AppendCartRowPreservesValid(db, userId, movieId, now);
    }
  }

  lemma IncrementPreservesValid(db: Db, userId: string, movieId: int, now: Instant, i: nat)
    requires Valid(db) && FindCartItem(db.carts, userId, movieId) == Some(i)
    ensures Valid(AddMovieToCart(db, userId, movieId, now).value)
  {
    var a := AddMovieToCart(db, userId, movieId, now).value;
    assert forall k :: 0 <= k < |a.carts| ==>
      a.carts[k].id == db.carts[k].id && a.carts[k].userId == db.carts[k].userId && a.carts[k].movieId == db.carts[k].movieId;
  }

  lemma AppendCartRowPreservesValid(db: Db, userId: string, movieId: int, now: Instant)
    requires Valid(db) && FindCartItem(db.carts, userId, movieId).None?
    requires AddMovieToCart(db, userId, movieId, now).Success?
    ensures Valid(AddMovieToCart(db, userId, movieId, now).value)
  {
    var a := AddMovieToCart(db, userId, movieId, now).value;
    assert forall k :: 0 <= k < |db.carts| ==> !IsCartOf(db.carts[k], userId, movieId);
    assert a.carts[|db.carts|] == CartItem(db.nextId, movieId, userId, now, 1);
  }

  lemma RemoveFromCartPreservesValid(db: Db, userId: string, movieId: int)
    requires Valid(db)
    ensures Valid(RemoveFromCart(db, userId, movieId))
  {
    match FindCartItem(db.carts, userId, movieId)
    case None =>
    case Some(i) =>
      if db.carts[i].quantity > 1 {
        DecrementPreservesValid(db, userId, movieId, i);
      } else {
        DeleteCartRowPreservesValid(db, userId, movieId, i);
      }
  }

  lemma DecrementPreservesValid(db: Db, userId: string, movieId: int, i: nat)
    requires Valid(db) && FindCartItem(db.carts, userId, movieId) == Some(i) && db.carts[i].quantity > 1
    ensures Valid(RemoveFromCart(db, userId, movieId))
  {
    var a := RemoveFromCart(db, userId, movieId);
    assert forall k :: 0 <= k < |a.carts| ==>
      a.carts[k].id == db.carts[k].id && a.carts[k].userId == db.carts[k].userId && a.carts[k].movieId == db.carts[k].movieId;
  }

  lemma DeleteCartRowPreservesValid(db: Db, userId: string, movieId: int, i: nat)
    requires Valid(db) && FindCartItem(db.carts, userId, movieId) == Some(i) && db.carts[i].quantity <= 1
    ensures Valid(RemoveFromCart(db, userId, movieId))
  {
    var a := RemoveFromCart(db, userId, movieId);
    forall x, y | 0 <= x < y < |a.carts|
      ensures !CartClash(a.carts[x], a.carts[y])
    {
      var x' := if x < i then x else x + 1;
      var y' := if y < i then y else y + 1;
      assert a.carts[x] == db.carts[x'] && a.carts[y] == db.carts[y'];
    }
  }

  /** Adding a movie and then removing it restores the cart table exactly
      (only the identity counter remembers the insert). */
  lemma AddThenRemoveRestoresCart(db: Db, userId: string, movieId: int, now: Instant)
    requires CartsValid(db)
    ensures AddMovieToCart(db, userId, movieId, now).Success? ==>
              var a := AddMovieToCart(db, userId, movieId, now).value;
              RemoveFromCart(a, userId, movieId) == db.(nextId := a.nextId)
  {
    var r := AddMovieToCart(db, userId, movieId, now);
    if r.Success? {
      if FindCartItem(db.carts, userId, movieId).Some? {
        IncrementThenDecrement(db, userId, movieId, now);
      } else {
        AppendThenDelete(db, userId, movieId, now);
      }
    }
  }

  lemma IncrementThenDecrement(db: Db, userId: string, movieId: int, now: Instant)
    requires CartsValid(db) && FindCartItem(db.carts, userId, movieId).Some?
    ensures RemoveFromCart(AddMovieToCart(db, userId, movieId, now).value, userId, movieId).carts == db.carts
  {
    var a := AddMovieToCart(db, userId, movieId, now).value;
    var i := FindCartItem(db.carts, userId, movieId).value;
    assert IsCartOf(a.carts[i], userId, movieId);
    assert forall k :: 0 <= k < i ==> !IsCartOf(a.carts[k], userId, movieId);
    assert FindCartItem(a.carts, userId, movieId) == Some(i);
    assert a.carts[i].quantity > 1;
    var b := RemoveFromCart(a, userId, movieId);
    assert |b.carts| == |db.carts|;
    assert forall k :: 0 <= k < |db.carts| ==> b.carts[k] == db.carts[k];
  }

  lemma AppendThenDelete(db: Db, userId: string, movieId: int, now: Instant)
    requires FindCartItem(db.carts, userId, movieId).None? && MovieExists(db.movies, movieId)
    ensures RemoveFromCart(AddMovieToCart(db, userId, movieId, now).value, userId, movieId).carts == db.carts
  {
    var a := AddMovieToCart(db, userId, movieId, now).value;
    var n := |db.carts|;
    assert IsCartOf(a.carts[n], userId, movieId);
    assert forall k :: 0 <= k < n ==> !IsCartOf(a.carts[k], userId, movieId);
    assert FindCartItem(a.carts, userId, movieId) == Some(n);
    assert a.carts[n].quantity == 1;
    assert RemoveAt(a.carts, n) == db.carts;
  }

  // -------------------------------------------------------------- wishlist

  /** `AddItemToWishlistAsync`: insert the pair unless it is already there. */
  function AddItemToWishlist(db: Db, userId: string, movieId: int, now: Instant): (r: Result<Db, StoreError>)
    ensures FindWishlistItem(db.wishlist, userId, movieId).Some? ==> r == Success(db)
    ensures FindWishlistItem(db.wishlist, userId, movieId).None? ==>
              if MovieExists(db.movies, movieId) then
                r == Success(db.(wishlist := db.wishlist + [WishlistItem(db.nextId, now, movieId, userId)], nextId := db.nextId + 1))
              else r == Failure(ForeignKeyViolation)
  {
    if FindWishlistItem(db.wishlist, userId, movieId).Some? then Success(db)
    else if !MovieExists(db.movies, movieId) then Failure(ForeignKeyViolation)
    else Success(db.(wishlist := db.wishlist + [WishlistItem(db.nextId, now, movieId, userId)], nextId := db.nextId + 1))
  }

  /** `RemoveItemFromWishlistAsync`: delete the pair's row if there is one. */
  function RemoveItemFromWishlist(db: Db, userId: string, movieId: int): (r: Db)
    ensures r.(wishlist := db.wishlist) == db
    ensures FindWishlistItem(db.wishlist, userId, movieId).None? ==> r == db
    ensures FindWishlistItem(db.wishlist, userId, movieId).Some? ==>
              r.wishlist == RemoveAt(db.wishlist, FindWishlistItem(db.wishlist, userId, movieId).value)
  {
    match FindWishlistItem(db.wishlist, userId, movieId)
    case None => db
    case Some(i) => db.(wishlist := RemoveAt(db.wishlist, i))
  }

  /** A second add of the same pair changes nothing, whatever its clock reads. */
  lemma AddItemToWishlistIdempotent(db: Db, userId: string, movieId: int, now: Instant, later: Instant)
    ensures AddItemToWishlist(db, userId, movieId, now).Success? ==>
              var once := AddItemToWishlist(db, userId, movieId, now).value;
              AddItemToWishlist(once, userId, movieId, later) == Success(once)
  {
    var r := AddItemToWishlist(db, userId, movieId, now);
    if r.Success? && FindWishlistItem(db.wishlist, userId, movieId).None? {
      var once := r.value;
      assert IsWishOf(once.wishlist[|db.wishlist|], userId, movieId);
    }
  }

  /** After a remove the pair is absent from the wishlist, and nobody else's row moved. */
  lemma RemoveItemFromWishlistRemovesPair(db: Db, userId: string, movieId: int)
    requires WishlistValid(db)
    ensures FindWishlistItem(RemoveItemFromWishlist(db, userId, movieId).wishlist, userId, movieId).None?
    ensures forall w :: w in db.wishlist && !IsWishOf(w, userId, movieId) ==>
              w in RemoveItemFromWishlist(db, userId, movieId).wishlist
  {
    var a := RemoveItemFromWishlist(db, userId, movieId);
    match FindWishlistItem(db.wishlist, userId, movieId)
    case None =>
    case Some(i) =>
      forall k | 0 <= k < |a.wishlist|
        ensures !IsWishOf(a.wishlist[k], userId, movieId)
      {
        if k >= i {
          assert !WishClash(db.wishlist[i], db.wishlist[k + 1]);
        }
      }
      forall w | w in db.wishlist && !IsWishOf(w, userId, movieId)
        ensures w in a.wishlist
      {
        var k :| 0 <= k < |db.wishlist| && db.wishlist[k] == w;
        assert k != i;
        if k < i {
          assert a.wishlist[k] == w;
        } else {
          assert a.wishlist[k - 1] == w;
        }
      }
  }

  lemma AddItemToWishlistPreservesValid(db: Db, userId: string, movieId: int, now: Instant)
    requires Valid(db)
    ensures AddItemToWishlist(db, userId, movieId, now).Success? ==>
              Valid(AddItemToWishlist(db, userId, movieId, now).value)
  {
    if FindWishlistItem(db.wishlist, userId, movieId).None? && MovieExists(db.movies, movieId) {
      var a := AddItemToWishlist(db, userId, movieId, now).value;
      assert forall k :: 0 <= k < |db.wishlist| ==> !IsWishOf(db.wishlist[k], userId, movieId);
      assert a.wishlist[|db.wishlist|] == WishlistItem(db.nextId, now, movieId, userId);
    }
  }

  lemma RemoveItemFromWishlistPreservesValid(db: Db, userId: string, movieId: int)
    requires Valid(db)
    ensures Valid(RemoveItemFromWishlist(db, userId, movieId))
  {
    var a := RemoveItemFromWishlist(db, userId, movieId);
    match FindWishlistItem(db.wishlist, userId, movieId)
    case None =>
    case Some(i) =>
      forall x, y | 0 <= x < y < |a.wishlist|
        ensures !WishClash(a.wishlist[x], a.wishlist[y])
      {
        var x' := if x < i then x else x + 1;
        var y' := if y < i then y else y + 1;
        assert a.wishlist[x] == db.wishlist[x'] && a.wishlist[y] == db.wishlist[y'];
      }
  }

  // ------------------------------------------------------------- purchases

  /** A cart row loaded with `Include(c => c.Movie)`: the row and its movie's price. */
  datatype CartLine = CartLine(item: CartItem, price: Cents)

  /** The rows of `carts` belonging to `userId` whose movie exists, each
      joined with its movie's price. The query has no `OrderBy`, so the store
      may return them in any order; table order is the one chosen here. */
  function JoinLines(carts: seq<CartItem>, movies: seq<Movie>, userId: string): (r: seq<CartLine>)
    ensures forall k :: 0 <= k < |r| ==>
              && r[k].item in carts
              && r[k].item.userId == userId
              && MovieExists(movies, r[k].item.movieId)
              && r[k].price == PriceOf(movies, r[k].item.movieId)
    ensures forall c :: c in carts && c.userId == userId && MovieExists(movies, c.movieId) ==>
              exists k :: 0 <= k < |r| && r[k].item == c
    decreases |carts|
  {
    if |carts| == 0 then []
    else
      var rest := JoinLines(carts[1..], movies, userId);
      var c := carts[0];
      if c.userId == userId && MovieExists(movies, c.movieId) then
        var r := [CartLine(c, PriceOf(movies, c.movieId))] + rest;
        assert forall k :: 0 <= k < |rest| ==> r[k + 1] == rest[k];
        assert r[0].item == c;
        r
      else
        rest
  }

  /** `GetCartItemsAsync(userId)`: the user's rows with their movies included
      (an inner join on the required movie reference). */
  function GetCartItems(db: Db, userId: string): (r: seq<CartLine>)
    ensures forall k :: 0 <= k < |r| ==>
              && r[k].item in db.carts
              && r[k].item.userId == userId
              && MovieExists(db.movies, r[k].item.movieId)
              && r[k].price == PriceOf(db.movies, r[k].item.movieId)
    ensures forall c :: c in db.carts && c.userId == userId && MovieExists(db.movies, c.movieId) ==>
              exists k :: 0 <= k < |r| && r[k].item == c
  {
    JoinLines(db.carts, db.movies, userId)
  }

  /** What one row contributes to its owner's cart total. */
  function RowValue(movies: seq<Movie>, userId: string): CartItem -> int {
    (c: CartItem) => if c.userId == userId && MovieExists(movies, c.movieId) then PriceOf(movies, c.movieId) * c.quantity else 0
  }

  /** The loaded cart's total is a per-row sum over the whole table. */
  lemma {:induction false} JoinLinesTotal(carts: seq<CartItem>, movies: seq<Movie>, userId: string)
    ensures SumOf(JoinLines(carts, movies, userId), LineTotal) == SumOf(carts, RowValue(movies, userId))
    decreases |carts|
  {
    if |carts| > 0 {
      JoinLinesTotal(carts[1..], movies, userId);
      var rest := JoinLines(carts[1..], movies, userId);
      var c := carts[0];
      if c.userId == userId && MovieExists(movies, c.movieId) {
        SumOfAppend([CartLine(c, PriceOf(movies, c.movieId))], rest, LineTotal);
      }
    }
  }

  /** The passed lines are tracked rows of this store with their movies loaded. */
  predicate LoadedFrom(db: Db, lines: seq<CartLine>) {
    forall k :: 0 <= k < |lines| ==>
      && lines[k].item in db.carts
      && MovieExists(db.movies, lines[k].item.movieId)
      && lines[k].price == PriceOf(db.movies, lines[k].item.movieId)
  }

  function LineTotal(l: CartLine): Cents {
    l.price * l.item.quantity
  }

  /** `cartItems.Sum(ci => ci.Movie.Price * ci.Quantity)`. */
  function CartTotal(lines: seq<CartLine>): Cents {
    SumOf(lines, LineTotal)
  }

  function LineIds(lines: seq<CartLine>): set<int> {
    set k | 0 <= k < |lines| :: lines[k].item.id
  }

  /** One `PurchaseItem` per line: same movie, price snapshot, default quantity. */
  function ItemsOf(lines: seq<CartLine>): (r: seq<PurchaseItem>)
    ensures |r| == |lines|
    ensures forall k :: 0 <= k < |r| ==>
              && r[k].movieId == lines[k].item.movieId
              && r[k].priceAtPurchase == lines[k].price
              && r[k].quantity == DefaultPurchaseQuantity
  {
    if |lines| == 0 then []
    else [PurchaseItem(lines[0].price, DefaultPurchaseQuantity, lines[0].item.movieId)] + ItemsOf(lines[1..])
  }

  datatype PurchaseRecord = PurchaseRecord(db: Db, purchase: Purchase)

  /** Rows that survive the checkout's `RemoveRange`. */
  function NotPurchased(ids: set<int>): CartItem -> bool {
    (c: CartItem) => c.id !in ids
  }

  /** `CreatePurchaseAsync`: one atomic step that records a succeeded purchase
      of the passed rows and deletes exactly those rows from the cart. */
  function CreatePurchase(db: Db, userId: string, paymentIntentId: string, lines: seq<CartLine>, now: Instant)
    : (r: Result<PurchaseRecord, StoreError>)
    requires LoadedFrom(db, lines)
    ensures r.Failure? <==> |lines| == 0
    ensures r.Failure? ==> r.error == CartIsEmpty
    ensures r.Success? ==>
              var p := r.value.purchase;
              && p.id == db.nextId
              && p.userId == userId
              && p.purchaseDate == now
              && p.paymentIntentId == paymentIntentId
              && p.paymentStatus == "Succeeded"
              && p.totalAmount == CartTotal(lines)
              && p.items == ItemsOf(lines)
              && r.value.db.purchases == db.purchases + [p]
              && r.value.db.nextId == db.nextId + 1
              && r.value.db.(carts := db.carts, purchases := db.purchases, nextId := db.nextId) == db
              && (forall c :: c in r.value.db.carts <==> c in db.carts && c.id !in LineIds(lines))
  {
    if |lines| == 0 then Failure(CartIsEmpty)
    else
      var p := Purchase(db.nextId, now, CartTotal(lines), userId, paymentIntentId, "Succeeded", ItemsOf(lines));
      var carts := Filter(db.carts, NotPurchased(LineIds(lines)));
      Success(PurchaseRecord(db.(carts := carts, purchases := db.purchases + [p], nextId := db.nextId + 1), p))
  }

  /** With distinct row ids, the purchase deletes exactly the passed rows. */
  lemma CreatePurchaseRemovesExactlyLines(db: Db, userId: string, paymentIntentId: string, lines: seq<CartLine>, now: Instant)
    requires CartsValid(db) && LoadedFrom(db, lines) && |lines| > 0
    ensures forall c :: c in CreatePurchase(db, userId, paymentIntentId, lines, now).value.db.carts <==>
              c in db.carts && forall k :: 0 <= k < |lines| ==> lines[k].item != c
  {
    forall c | c in db.carts && c.id in LineIds(lines)
      ensures exists k :: 0 <= k < |lines| && lines[k].item == c
    {
      var k :| 0 <= k < |lines| && lines[k].item.id == c.id;
      CartIdIdentifiesRow(db, lines[k].item, c);
    }
  }

  /** Every row of the user is loaded (the foreign key guarantees its movie),
      and no row of another user shares an id with a loaded row. */
  lemma LoadedIdsAreUserRows(db: Db, userId: string)
    requires CartsValid(db)
    ensures forall c :: c in db.carts ==> (c.id in LineIds(GetCartItems(db, userId)) <==> c.userId == userId)
  {
    var lines := GetCartItems(db, userId);
    forall c | c in db.carts
      ensures c.id in LineIds(lines) <==> c.userId == userId
    {
      var i :| 0 <= i < |db.carts| && db.carts[i] == c;
      if c.userId == userId {
        assert MovieExists(db.movies, c.movieId);
        var j :| 0 <= j < |lines| && lines[j].item == c;
      }
      if c.id in LineIds(lines) {
        var k :| 0 <= k < |lines| && lines[k].item.id == c.id;
        CartIdIdentifiesRow(db, lines[k].item, c);
      }
    }
  }

  /** Checking out the user's whole loaded cart empties that user's cart and
      leaves every other user's rows in place. */
  lemma CreatePurchaseClearsUserCart(db: Db, userId: string, paymentIntentId: string, now: Instant)
    requires CartsValid(db) && |GetCartItems(db, userId)| > 0
    ensures var r := CreatePurchase(db, userId, paymentIntentId, GetCartItems(db, userId), now);
            && r.Success?
            && (forall c :: c in r.value.db.carts ==> c.userId != userId)
            && (forall c :: c in db.carts && c.userId != userId ==> c in r.value.db.carts)
  {
    LoadedIdsAreUserRows(db, userId);
  }

  lemma {:induction false} CreatePurchasePreservesValid(db: Db, userId: string, paymentIntentId: string, lines: seq<CartLine>, now: Instant)
    requires Valid(db) && LoadedFrom(db, lines)
    ensures CreatePurchase(db, userId, paymentIntentId, lines, now).Success? ==>
              Valid(CreatePurchase(db, userId, paymentIntentId, lines, now).value.db)
  {
    if |lines| > 0 {
      var r := CreatePurchase(db, userId, paymentIntentId, lines, now).value;
      var a := r.db;
      var keep := NotPurchased(LineIds(lines));
      assert a.carts == Filter(db.carts, keep);
      FilteredCartsValid(db, a, keep);
      AppendFreshPurchase(db, r.purchase);
    }
  }

  /** Dropping cart rows keeps the cart table valid. */
  lemma FilteredCartsValid(db: Db, a: Db, keep: CartItem -> bool)
    requires CartsValid(db) && a.carts == Filter(db.carts, keep) && a.movies == db.movies && a.nextId >= db.nextId
    ensures CartsValid(a)
  {
    FilterPairwise(db.carts, keep, CartClash);
    forall k | 0 <= k < |a.carts|
      ensures a.carts[k].quantity >= 1 && a.carts[k].id < a.nextId && MovieExists(a.movies, a.carts[k].movieId)
    {
      assert a.carts[k] in db.carts;
    }
  }

  lemma AppendFreshPurchase(db: Db, p: Purchase)
    requires PurchasesValid(db) && p.id == db.nextId
    ensures PurchasesValid(db.(purchases := db.purchases + [p], nextId := db.nextId + 1))
  {
  }

  // ----------------------------------------------- purchase line arithmetic

  function ItemValue(i: PurchaseItem): Cents {
    i.priceAtPurchase * i.quantity
  }

  function LinePrice(l: CartLine): Cents {
    l.price
  }

  lemma {:induction false} ItemsOfValue(lines: seq<CartLine>)
    ensures SumOf(ItemsOf(lines), ItemValue) == SumOf(lines, LinePrice)
    decreases |lines|
  {
    if |lines| > 0 {
      ItemsOfValue(lines[1..]);
      assert ItemsOf(lines)[1..] == ItemsOf(lines[1..]);
    }
  }

  lemma PriceAtMostLineTotal(l: CartLine)
    requires l.price >= 0 && l.item.quantity >= 1
    ensures LinePrice(l) <= LineTotal(l)
    ensures l.price > 0 && l.item.quantity > 1 ==> LinePrice(l) < LineTotal(l)
  {
    var p := l.price;
    var q := l.item.quantity;
    MulMonotone(1, q, p);
    if p > 0 && q > 1 {
      MulMonotone(2, q, p);
    }
  }

  /** Purchase lines carry quantity 1, not the cart's quantity: their value
      matches the recorded total when every row has quantity 1, and falls
      short of it as soon as a positive-priced row has quantity above 1. */
  lemma {:induction false} PurchaseItemsVersusTotal(lines: seq<CartLine>)
    requires forall k :: 0 <= k < |lines| ==> lines[k].price >= 0 && lines[k].item.quantity >= 1
    ensures (forall k :: 0 <= k < |lines| ==> lines[k].item.quantity == 1) ==>
              SumOf(ItemsOf(lines), ItemValue) == CartTotal(lines)
    ensures (exists k :: 0 <= k < |lines| && lines[k].price > 0 && lines[k].item.quantity > 1) ==>
              SumOf(ItemsOf(lines), ItemValue) < CartTotal(lines)
    ensures SumOf(ItemsOf(lines), ItemValue) <= CartTotal(lines)
  {
    ItemsOfValue(lines);
    forall k | 0 <= k < |lines|
      ensures LinePrice(lines[k]) <= LineTotal(lines[k])
      ensures lines[k].price > 0 && lines[k].item.quantity > 1 ==> LinePrice(lines[k]) < LineTotal(lines[k])
    {
      PriceAtMostLineTotal(lines[k]);
    }
    SumOfMonotone(lines, LinePrice, LineTotal);
    if forall k :: 0 <= k < |lines| ==> lines[k].item.quantity == 1 {
      SumOfMonotone(lines, LineTotal, LinePrice);
    }
  }
}

=== FILE: reviews_controller.dfy ===
/** Posting and deleting reviews. The review repository calls the controller
    makes (look up a user's review of a movie, look up a review by id, delete
    a review, recompute a movie's rating) have no implementation in the
    repository; the look-ups and the delete are given their plain meaning
    here, and the rating recompute is returned as a request naming the movie. */
module ReviewsController {
  import opened Wrappers
  import opened Models
  import opened Seqs
  import opened Repository

  function FindUserReview(reviews: seq<Review>, userId: string, movieId: int): Option<nat> {
    FirstIndex(reviews, (r: Review) => r.userId == userId && r.movieId == movieId)
  }

  function FindReview(reviews: seq<Review>, id: int): Option<nat> {
    FirstIndex(reviews, (r: Review) => r.id == id)
  }

  /** The `Content` column: required, `nvarchar(1000)`. */
  const ContentMaxLength: int := 1000

  datatype ReviewPage =
    | NotFound
    | Forbid
      /** The store refuses a null or over-long content when saving. */
    | StoreRejected
    | RedirectToDetails(movieId: int, succeeded: bool, message: string)

  /** The page shown, the store afterwards, and the movie whose rating the
      request asked to recompute. */
  datatype ReviewStep = ReviewStep(page: ReviewPage, db: Db, recompute: Option<int>)

  /** At most one review per (user, movie), the rule `Create` maintains. */
  predicate OneReviewPerUserAndMovie(db: Db) {
    Pairwise(db.reviews, (a: Review, b: Review) => a.userId == b.userId && a.movieId == b.movieId)
  }

  /** `Create`: post a review unless the movie is missing or the user has
      already reviewed it; the rating is stored as given. `content` is the
      bound form value: model binding turns empty or blank text into null,
      so a request never passes an empty or all-blank `Some`. */
  function Create(db: Db, userId: string, movieId: int, rating: int, content: Option<string>, now: Instant): (r: ReviewStep)
    ensures !MovieExists(db.movies, movieId) ==> r == ReviewStep(NotFound, db, None)
    ensures MovieExists(db.movies, movieId) && FindUserReview(db.reviews, userId, movieId).Some? ==>
              r == ReviewStep(RedirectToDetails(movieId, false, "You've already reviewed this movie."), db, None)
    ensures r.db != db <==> r.recompute.Some?
    ensures r.recompute.Some? <==>
              && MovieExists(db.movies, movieId)
              && FindUserReview(db.reviews, userId, movieId).None?
              && content.Some? && |content.value| <= ContentMaxLength
    ensures MovieExists(db.movies, movieId) && FindUserReview(db.reviews, userId, movieId).None? &&
            (content.None? || |content.value| > ContentMaxLength) ==>
              r == ReviewStep(StoreRejected, db, None)
    ensures r.recompute.Some? ==>
              && r.recompute == Some(movieId)
              && r.page == RedirectToDetails(movieId, true, "Thank you for your review!")
              && r.db == db.(reviews := db.reviews + [Review(db.nextId, content.value, rating, now, movieId, userId)],
                             nextId := db.nextId + 1)
  {
    if !MovieExists(db.movies, movieId) then ReviewStep(NotFound, db, None)
    else if FindUserReview(db.reviews, userId, movieId).Some? then
      ReviewStep(RedirectToDetails(movieId, false, "You've already reviewed this movie."), db, None)
    else if content.None? || |content.value| > ContentMaxLength then ReviewStep(StoreRejected, db, None)
    else
      var review := Review(db.nextId, content.value, rating, now, movieId, userId);
      ReviewStep(RedirectToDetails(movieId, true, "Thank you for your review!"),
                 db.(reviews := db.reviews + [review], nextId := db.nextId + 1), Some(movieId))
  }

  /** Sequential posts never give a user two reviews of one movie. */
  lemma CreateKeepsOneReviewPerUserAndMovie(db: Db, userId: string, movieId: int, rating: int, content: Option<string>, now: Instant)
    requires OneReviewPerUserAndMovie(db)
    ensures OneReviewPerUserAndMovie(Create(db, userId, movieId, rating, content, now).db)
  {
    var r := Create(db, userId, movieId, rating, content, now);
    if r.recompute.Some? {
      var n := |db.reviews|;
      assert forall k :: 0 <= k < n ==> !(db.reviews[k].userId == userId && db.reviews[k].movieId == movieId);
      assert forall k :: 0 <= k < n ==> r.db.reviews[k] == db.reviews[k];
      assert r.db.reviews[n].userId == userId && r.db.reviews[n].movieId == movieId;
    }
  }

  lemma CreatePreservesValid(db: Db, userId: string, movieId: int, rating: int, content: Option<string>, now: Instant)
    requires Valid(db)
    ensures Valid(Create(db, userId, movieId, rating, content, now).db)
  {
  }

  /** Posting twice: the second post is refused and changes nothing. */
  lemma SecondReviewIsRefused(db: Db, userId: string, movieId: int, rating: int, content: Option<string>, now: Instant,
                              rating2: int, content2: Option<string>, later: Instant)
    ensures var first := Create(db, userId, movieId, rating, content, now);
            first.recompute.Some? ==>
              Create(first.db, userId, movieId, rating2, content2, later)
                == ReviewStep(RedirectToDetails(movieId, false, "You've already reviewed this movie."), first.db, None)
  {
    var first := Create(db, userId, movieId, rating, content, now);
    if first.recompute.Some? {
      var n := |db.reviews|;
      assert first.db.reviews[n].userId == userId && first.db.reviews[n].movieId == movieId;
      assert FindUserReview(first.db.reviews, userId, movieId).Some?;
    }
  }

  /** The rating is not range-checked on this path: a rating outside 1..5 is
      stored as given. */
  lemma RatingIsStoredUnchecked(db: Db, userId: string, movieId: int, content: string, now: Instant)
    requires MovieExists(db.movies, movieId) && FindUserReview(db.reviews, userId, movieId).None?
    requires |content| <= ContentMaxLength
    ensures Last(Create(db, userId, movieId, 0, Some(content), now).db.reviews).rating == 0
    ensures Last(Create(db, userId, movieId, 9, Some(content), now).db.reviews).rating == 9
  {
  }

  /** `Delete`: the author or an administrator may delete a review; the rating
      recompute names the movie the request passed, which need not be the
      review's movie. */
  function Delete(db: Db, userId: string, isAdmin: bool, id: int, movieId: int): (r: ReviewStep)
    ensures FindReview(db.reviews, id).None? ==> r == ReviewStep(NotFound, db, None)
    ensures FindReview(db.reviews, id).Some? ==>
              var review := db.reviews[FindReview(db.reviews, id).value];
              if review.userId != userId && !isAdmin then r == ReviewStep(Forbid, db, None)
              else
                && r.page == RedirectToDetails(movieId, true, "Review deleted successfully.")
                && r.recompute == Some(movieId)
                && r.db == db.(reviews := RemoveAt(db.reviews, FindReview(db.reviews, id).value))
  {
    match FindReview(db.reviews, id)
    case None => ReviewStep(NotFound, db, None)
    case Some(i) =>
      if db.reviews[i].userId != userId && !isAdmin then ReviewStep(Forbid, db, None)
      else ReviewStep(RedirectToDetails(movieId, true, "Review deleted successfully."),
                      db.(reviews := RemoveAt(db.reviews, i)), Some(movieId))
  }

  /** With distinct review ids, an authorised delete leaves no review with that
      id and keeps every other review. */
  lemma DeleteRemovesExactlyTheReview(db: Db, userId: string, isAdmin: bool, id: int, movieId: int)
    requires ReviewsValid(db)
    ensures var r := Delete(db, userId, isAdmin, id, movieId);
            r.recompute.Some? ==>
              && (forall x :: x in r.db.reviews ==> x.id != id)
              && (forall x :: x in db.reviews && x.id != id ==> x in r.db.reviews)
  {
    var r := Delete(db, userId, isAdmin, id, movieId);
    if r.recompute.Some? {
      var i := FindReview(db.reviews, id).value;
      forall x | x in r.db.reviews
        ensures x.id != id
      {
        var k :| 0 <= k < |r.db.reviews| && r.db.reviews[k] == x;
        if k < i {
          assert x == db.reviews[k];
        } else {
          assert x == db.reviews[k + 1];
          assert db.reviews[i].id != db.reviews[k + 1].id;
        }
      }
      forall x | x in db.reviews && x.id != id
        ensures x in r.db.reviews
      {
        var k :| 0 <= k < |db.reviews| && db.reviews[k] == x;
        if k < i {
          assert r.db.reviews[k] == x;
        } else {
          assert k != i;
          assert r.db.reviews[k - 1] == x;
        }
      }
    }
  }

  /** Someone who is neither the author nor an administrator cannot delete. */
  lemma OnlyAuthorOrAdminDeletes(db: Db, userId: string, isAdmin: bool, id: int, movieId: int)
    ensures var r := Delete(db, userId, isAdmin, id, movieId);
            r.db != db ==> isAdmin || (exists k :: 0 <= k < |db.reviews| && db.reviews[k].id == id && db.reviews[k].userId == userId)
  {
  }

  /** A delete request naming another movie deletes the review and asks to
      recompute the other movie, so the review's own movie keeps a rating that
      still counts the deleted review. */
  lemma DeleteRecomputesTheRequestedMovie()
    ensures var m1 := Movie(1, "A", None, 0, 100, None, None, 4.0, None, None, 90);
            var m2 := Movie(2, "B", None, 0, 100, None, None, 0.0, None, None, 90);
            var db := Db([m1, m2], [], [], [], [Review(5, "good", 4, 0, 1, "u")], 6);
            var r := Delete(db, "u", false, 5, 2);
            && r.db.reviews == []
            && r.recompute == Some(2)
            && r.db.movies[0].rating == 4.0
  {
    var m1 := Movie(1, "A", None, 0, 100, None, None, 4.0, None, None, 90);
    var m2 := Movie(2, "B", None, 0, 100, None, None, 0.0, None, None, 90);
    var db := Db([m1, m2], [], [], [], [Review(5, "good", 4, 0, 1, "u")], 6);
    assert FindReview(db.reviews, 5) == Some(0);
  }
}

=== FILE: seqs.dfy ===
/** Small sequence toolkit: the LINQ operators the source applies to row
    lists (FirstOrDefault, Where, Sum), with the facts the proofs use. */
module Seqs {
  import opened Wrappers

  /** Position of the first element satisfying `p`, the row that
      `FirstOrDefaultAsync(p)` returns. */
  function FirstIndex<T>(s: seq<T>, p: T -> bool): (r: Option<nat>)
    ensures r.Some? ==> r.value < |s| && p(s[r.value])
    ensures r.Some? ==> forall k :: 0 <= k < r.value ==> !p(s[k])
    ensures r.None? <==> forall k :: 0 <= k < |s| ==> !p(s[k])
  {
    if |s| == 0 then None
    else if p(s[0]) then Some(0)
    else match FirstIndex(s[1..], p)
      case None => None
      case Some(i) => Some(i + 1)
  }

  /** `Where(p)`: the elements satisfying `p`, in their original order. */
  function Filter<T>(s: seq<T>, p: T -> bool): (r: seq<T>)
    ensures |r| <= |s|
    ensures forall k :: 0 <= k < |r| ==> r[k] in s && p(r[k])
    ensures forall k :: 0 <= k < |s| && p(s[k]) ==> s[k] in r
    ensures (forall k :: 0 <= k < |s| ==> p(s[k])) ==> r == s
  {
    if |s| == 0 then []
    else (if p(s[0]) then [s[0]] else []) + Filter(s[1..], p)
  }

  /** `Last()`. */
  function Last<T>(s: seq<T>): (r: T)
    requires |s| > 0
    ensures r in s
  {
    s[|s| - 1]
  }

  /** `Sum(f)` over a list. */
  function SumOf<T>(s: seq<T>, f: T -> int): int
  {
    if |s| == 0 then 0 else f(s[0]) + SumOf(s[1..], f)
  }

  /** The rows of `s` without the one at position `i` (`Remove` of a tracked row). */
  function RemoveAt<T>(s: seq<T>, i: nat): (r: seq<T>)
    requires i < |s|
    ensures |r| == |s| - 1
    ensures forall k :: 0 <= k < i ==> r[k] == s[k]
    ensures forall k :: i <= k < |r| ==> r[k] == s[k + 1]
  {
    s[..i] + s[i + 1..]
  }

  /** `Where(p)` over rows none of which satisfies `p` is empty. */
  lemma {:induction false} FilterNone<T>(s: seq<T>, p: T -> bool)
    requires forall k :: 0 <= k < |s| ==> !p(s[k])
    ensures Filter(s, p) == []
    decreases |s|
  {
    if |s| > 0 {
      FilterNone(s[1..], p);
    }
  }

  lemma {:induction false} FilterAppend<T>(a: seq<T>, b: seq<T>, p: T -> bool)
    ensures Filter(a + b, p) == Filter(a, p) + Filter(b, p)
    decreases |a|
  {
    if |a| == 0 {
      assert a + b == b;
    } else {
      assert (a + b)[1..] == a[1..] + b;
      FilterAppend(a[1..], b, p);
    }
  }

  lemma {:induction false} SumOfAppend<T>(a: seq<T>, b: seq<T>, f: T -> int)
    ensures SumOf(a + b, f) == SumOf(a, f) + SumOf(b, f)
    decreases |a|
  {
    if |a| == 0 {
      assert a + b == b;
    } else {
      assert (a + b)[1..] == a[1..] + b;
      SumOfAppend(a[1..], b, f);
    }
  }

  /** The sum over `[x] + s` unfolds once. */
  lemma SumOfCons<T>(x: T, s: seq<T>, f: T -> int)
    ensures SumOf([x] + s, f) == f(x) + SumOf(s, f)
  {
    assert ([x] + s)[1..] == s;
  }

  /** Changing one element changes the sum by exactly the difference. */
  lemma {:induction false} SumOfUpdate<T>(s: seq<T>, i: nat, x: T, f: T -> int)
    requires i < |s|
    ensures SumOf(s[i := x], f) == SumOf(s, f) - f(s[i]) + f(x)
    decreases i
  {
    if i == 0 {
      assert s[i := x] == [x] + s[1..];
      SumOfCons(x, s[1..], f);
    } else {
      SumOfUpdate(s[1..], i - 1, x, f);
      assert s[i := x] == [s[0]] + s[1..][i - 1 := x];
      SumOfCons(s[0], s[1..][i - 1 := x], f);
    }
  }

  /** Removing one element removes exactly its contribution. */
  lemma {:induction false} SumOfRemoveAt<T>(s: seq<T>, i: nat, f: T -> int)
    requires i < |s|
    ensures SumOf(RemoveAt(s, i), f) == SumOf(s, f) - f(s[i])
    decreases i
  {
    if i == 0 {
      assert RemoveAt(s, i) == s[1..];
    } else {
      SumOfRemoveAt(s[1..], i - 1, f);
      assert RemoveAt(s, i) == [s[0]] + RemoveAt(s[1..], i - 1);
      SumOfCons(s[0], RemoveAt(s[1..], i - 1), f);
    }
  }

  /** A sum whose every term is zero is zero. */
  lemma {:induction false} SumOfZero<T>(s: seq<T>, f: T -> int)
    requires forall k :: 0 <= k < |s| ==> f(s[k]) == 0
    ensures SumOf(s, f) == 0
    decreases |s|
  {
    if |s| > 0 {
      SumOfZero(s[1..], f);
    }
  }

  /** Pointwise `f <= g` gives `Sum f <= Sum g`, strictly when one term is strictly smaller. */
  lemma {:induction false} SumOfMonotone<T>(s: seq<T>, f: T -> int, g: T -> int)
    requires forall k :: 0 <= k < |s| ==> f(s[k]) <= g(s[k])
    ensures SumOf(s, f) <= SumOf(s, g)
    ensures (exists k :: 0 <= k < |s| && f(s[k]) < g(s[k])) ==> SumOf(s, f) < SumOf(s, g)
    decreases |s|
  {
    if |s| > 0 {
      SumOfMonotone(s[1..], f, g);
      if exists k :: 0 <= k < |s| && f(s[k]) < g(s[k]) {
        var k :| 0 <= k < |s| && f(s[k]) < g(s[k]);
        if k > 0 {
          assert f(s[1..][k - 1]) < g(s[1..][k - 1]);
        }
      }
    }
  }
}

=== FILE: sorting.dfy ===
/** Ordering of query results. A SQL `ORDER BY` returns SOME arrangement of
    the rows that is sorted by the key; the model fixes one such arrangement
    (a stable insertion sort) and proves it is a sorted permutation. */
module Sorting {

  ghost predicate Total<T(!new)>(leq: (T, T) -> bool) {
    forall a, b :: leq(a, b) || leq(b, a)
  }

  ghost predicate Transitive<T(!new)>(leq: (T, T) -> bool) {
    forall a, b, c :: leq(a, b) && leq(b, c) ==> leq(a, c)
  }

  predicate Sorted<T>(s: seq<T>, leq: (T, T) -> bool) {
    forall i, j :: 0 <= i < j < |s| ==> leq(s[i], s[j])
  }

  function Insert<T>(x: T, s: seq<T>, leq: (T, T) -> bool): (r: seq<T>)
    ensures multiset(r) == multiset(s) + multiset{x}
    ensures |r| == |s| + 1
  {
    if |s| == 0 then [x]
    else if leq(x, s[0]) then [x] + s
    else
      assert s == [s[0]] + s[1..];
      [s[0]] + Insert(x, s[1..], leq)
  }

  function SortBy<T>(s: seq<T>, leq: (T, T) -> bool): (r: seq<T>)
    ensures multiset(r) == multiset(s)
    ensures |r| == |s|
  {
    if |s| == 0 then []
    else
      assert s == [s[0]] + s[1..];
      Insert(s[0], SortBy(s[1..], leq), leq)
  }

  lemma {:induction false} InsertSorted<T(!new)>(x: T, s: seq<T>, leq: (T, T) -> bool)
    requires Total(leq) && Transitive(leq)
    requires Sorted(s, leq)
    ensures Sorted(Insert(x, s, leq), leq)
    decreases |s|
  {
    if |s| > 0 && !leq(x, s[0]) {
      var tail := Insert(x, s[1..], leq);
      InsertSorted(x, s[1..], leq);
      assert leq(s[0], x);
      forall j | 0 <= j < |tail|
        ensures leq(s[0], tail[j])
      {
        assert tail[j] in multiset(tail);
        if tail[j] != x {
          assert tail[j] in multiset(s[1..]);
          var k :| 0 <= k < |s[1..]| && s[1..][k] == tail[j];
          assert s[k + 1] == tail[j];
        }
      }
    }
  }

  lemma {:induction false} SortBySorted<T(!new)>(s: seq<T>, leq: (T, T) -> bool)
    requires Total(leq) && Transitive(leq)
    ensures Sorted(SortBy(s, leq), leq)
    decreases |s|
  {
    if |s| > 0 {
      SortBySorted(s[1..], leq);
      InsertSorted(s[0], SortBy(s[1..], leq), leq);
    }
  }
}

=== FILE: text.dfy ===
/** Ordinal string operations standing for the .NET string methods the
    source calls: `String.IsNullOrEmpty`, `String.Contains` and the ordering
    `OrderBy(m => m.Title)` uses. */
module Text {
  import opened Wrappers

  predicate IsNullOrEmpty(s: Option<string>) {
    s.None? || s.value == []
  }

  /** `term` occurs in `s` starting at position `i`. */
  predicate OccursAt(s: string, term: string, i: int) {
    0 <= i && i + |term| <= |s| && s[i..i + |term|] == term
  }

  predicate IsPrefix(p: string, s: string) {
    |p| <= |s| && s[..|p|] == p
  }

  /** Substring test, computed by scanning the start positions left to right. */
  predicate Contains(s: string, term: string)
    decreases |s|
  {
    IsPrefix(term, s) || (|s| > 0 && Contains(s[1..], term))
  }

  /** The scan finds the term exactly when it occurs somewhere. */
  lemma {:induction false} ContainsIffOccurs(s: string, term: string)
    ensures Contains(s, term) <==> exists i :: OccursAt(s, term, i)
    decreases |s|
  {
    if Contains(s, term) {
      if IsPrefix(term, s) {
        assert OccursAt(s, term, 0);
      } else {
        ContainsIffOccurs(s[1..], term);
        var i :| OccursAt(s[1..], term, i);
        assert s[1..][i..i + |term|] == s[i + 1..i + 1 + |term|];
        assert OccursAt(s, term, i + 1);
      }
    }
    if exists i :: OccursAt(s, term, i) {
      var i :| OccursAt(s, term, i);
      if i == 0 {
        assert IsPrefix(term, s);
      } else {
        assert s[1..][i - 1..i - 1 + |term|] == s[i..i + |term|];
        assert OccursAt(s[1..], term, i - 1);
        ContainsIffOccurs(s[1..], term);
      }
    }
  }

  /** Ordinal (character-code) lexicographic order on strings. */
  predicate StrLeq(a: string, b: string)
    decreases |a|
  {
    |a| == 0 || (|b| > 0 && (a[0] < b[0] || (a[0] == b[0] && StrLeq(a[1..], b[1..]))))
  }

  lemma {:induction false} StrLeqTotal(a: string, b: string)
    ensures StrLeq(a, b) || StrLeq(b, a)
    decreases |a|
  {
    if |a| > 0 && |b| > 0 && a[0] == b[0] {
      StrLeqTotal(a[1..], b[1..]);
    }
  }

  lemma {:induction false} StrLeqTransitive(a: string, b: string, c: string)
    requires StrLeq(a, b) && StrLeq(b, c)
    ensures StrLeq(a, c)
    decreases |a|
  {
    if |a| > 0 && a[0] == b[0] && b[0] == c[0] {
      StrLeqTransitive(a[1..], b[1..], c[1..]);
    }
  }

  lemma {:induction false} StrLeqAntisymmetric(a: string, b: string)
    requires StrLeq(a, b) && StrLeq(b, a)
    ensures a == b
    decreases |a|
  {
    if |a| > 0 {
      StrLeqAntisymmetric(a[1..], b[1..]);
      assert a == [a[0]] + a[1..];
      assert b == [b[0]] + b[1..];
    }
  }
}

=== FILE: validation.dfy ===
/** The data-annotation rules of the movie and actor forms, and how the actor
    form becomes a stored actor. The two checks the annotation library
    performs on text, "is this a URL" and "is this character white space",
    are parameters. */
module FormValidation {
  import opened Wrappers
  import opened Models

  /** The library's classifications of text. */
  datatype Annotations = Annotations(isUrl: string -> bool, isWhiteSpace: char -> bool)

  /** `[Required]` on a string: present and not only white space. */
  predicate Required(a: Annotations, s: Option<string>) {
    s.Some? && exists i :: 0 <= i < |s.value| && !a.isWhiteSpace(s.value[i])
  }

  /** `[StringLength(n)]`: a null value passes; otherwise at most `n` characters. */
  predicate AtMost(s: Option<string>, n: nat) {
    s.None? || |s.value| <= n
  }

  /** `[Url]`: a null value passes; otherwise the library's URL check. */
  predicate UrlOrNull(a: Annotations, s: Option<string>) {
    s.None? || a.isUrl(s.value)
  }

  // ------------------------------------------------------------- movie form

  /** One cast row of the movie form (`MovieActorInputModel`). */
  datatype ActorInput = ActorInput(actorId: int, characterName: Option<string>)

  datatype MovieForm = MovieForm(
    id: int,
    title: Option<string>,
    description: Option<string>,
    releaseDate: Instant,
    genre: Option<string>,
    price: Cents,
    director: Option<string>,
    rating: real,
    imageUrl: Option<string>,
    videoUrl: Option<string>,
    durationMinutes: int,
    actors: seq<ActorInput>)

  const MinPriceCents: int := 1
  const MaxPriceCents: int := 100000

  /** `Convert.ToInt32` of a floating-point value: the nearest integer, a
      tie going to the even neighbour. */
  function RoundHalfEven(x: real): int {
    var lo := x.Floor;
    var frac := x - lo as real;
    if frac < 0.5 then lo
    else if frac > 0.5 then lo + 1
    else if lo % 2 == 0 then lo else lo + 1
  }

  /** `[Range(1, 5)]` on the `float` rating: the integer overload of the
      attribute compares the rating converted to `int`. */
  predicate RatingInRange(rating: real) {
    1 <= RoundHalfEven(rating) <= 5
  }

  /** The ratings the rule accepts form the open interval from 0.5 to 5.5:
      both ends round to an even neighbour outside 1..5. */
  lemma RatingInRangeIff(rating: real)
    ensures RatingInRange(rating) <==> 0.5 < rating < 5.5
  {
    var lo := rating.Floor;
    assert lo as real <= rating < lo as real + 1.0;
    if rating <= 0.5 {
      assert lo <= 0;
      assert lo < 0 ==> RoundHalfEven(rating) <= 0;
    } else if rating >= 5.5 {
      assert lo >= 5;
      assert lo > 5 ==> RoundHalfEven(rating) >= 6;
    } else if rating < 1.0 {
      assert lo == 0;
    } else {
      assert 1 <= lo <= 5;
    }
  }

  predicate ActorInputValid(a: Annotations, row: ActorInput) {
    Required(a, row.characterName) && AtMost(row.characterName, 100)
  }

  /** Every rule of the movie form, the cast rows included. */
  predicate MovieFormValid(a: Annotations, f: MovieForm) {
    && Required(a, f.title) && AtMost(f.title, 100)
    && AtMost(f.description, 500)
    && Required(a, f.genre) && AtMost(f.genre, 100)
    && MinPriceCents <= f.price <= MaxPriceCents
    && AtMost(f.director, 100)
    && RatingInRange(f.rating)
    && AtMost(f.videoUrl, 255) && UrlOrNull(a, f.videoUrl)
    && 1 <= f.durationMinutes <= 500
    && forall k :: 0 <= k < |f.actors| ==> ActorInputValid(a, f.actors[k])
  }

  /** The movie row the admin `Create` action builds from a form, given the
      image path it settled on. The cast is built separately. */
  function MovieFromForm(f: MovieForm, newId: int, imagePath: Option<string>): (m: Movie)
    requires f.title.Some?
    ensures m.id == newId && m.title == f.title.value && m.description == f.description
    ensures m.genre == f.genre && m.director == f.director && m.price == f.price
    ensures m.videoUrl == f.videoUrl && m.imageUrl == imagePath && m.durationMinutes == f.durationMinutes
    ensures m.releaseDate == f.releaseDate && m.rating == f.rating
  {
    Movie(newId, f.title.value, f.description, f.releaseDate, f.price, f.genre, f.director, f.rating,
          imagePath, f.videoUrl, f.durationMinutes)
  }

  /** The column limits of a stored movie. */
  predicate MovieFitsColumns(m: Movie) {
    && |m.title| <= 100
    && AtMost(m.description, 500)
    && AtMost(m.genre, 100)
    && AtMost(m.director, 100)
    && AtMost(m.imageUrl, 255)
    && AtMost(m.videoUrl, 255)
  }

  /** A valid form fits every column but the image URL, which the form does
      not limit. */
  lemma ValidMovieFormFitsColumns(a: Annotations, f: MovieForm, newId: int, imagePath: Option<string>)
    requires MovieFormValid(a, f) && AtMost(imagePath, 255)
    ensures MovieFitsColumns(MovieFromForm(f, newId, imagePath))
  {
  }

  /** The boundaries of the numeric rules. */
  lemma MovieFormBoundaries(a: Annotations, f: MovieForm)
    requires MovieFormValid(a, f)
    ensures MovieFormValid(a, f.(price := MinPriceCents)) && MovieFormValid(a, f.(price := MaxPriceCents))
    ensures !MovieFormValid(a, f.(price := 0)) && !MovieFormValid(a, f.(price := 100001))
    ensures MovieFormValid(a, f.(durationMinutes := 1)) && MovieFormValid(a, f.(durationMinutes := 500))
    ensures !MovieFormValid(a, f.(durationMinutes := 0)) && !MovieFormValid(a, f.(durationMinutes := 501))
    ensures MovieFormValid(a, f.(rating := 0.6)) && MovieFormValid(a, f.(rating := 5.4))
    ensures !MovieFormValid(a, f.(rating := 0.5)) && !MovieFormValid(a, f.(rating := 5.5))
  {
    RatingInRangeIff(0.6);
    RatingInRangeIff(5.4);
    RatingInRangeIff(0.5);
    RatingInRangeIff(5.5);
  }

  /** Title and genre are required; description and director may be left out. */
  lemma MovieFormOptionalFields(a: Annotations, f: MovieForm)
    requires MovieFormValid(a, f)
    ensures MovieFormValid(a, f.(description := None, director := None, videoUrl := None))
    ensures !MovieFormValid(a, f.(title := None)) && !MovieFormValid(a, f.(genre := None))
  {
  }

  // ------------------------------------------------------------- actor form

  datatype ActorForm = ActorForm(name: Option<string>, bio: Option<string>, imageUrl: Option<string>, birthday: Instant)

  predicate ActorFormValid(a: Annotations, f: ActorForm) {
    && Required(a, f.name) && AtMost(f.name, 100)
    && Required(a, f.bio) && AtMost(f.bio, 1000)
    && Required(a, f.imageUrl) && UrlOrNull(a, f.imageUrl)
  }

  /** `CreateActor`: the form's fields copied into a new actor unchanged. */
  function ActorFromForm(f: ActorForm, newId: int): (actor: Actor)
    requires f.name.Some?
    ensures actor.id == newId && actor.name == f.name.value && actor.bio == f.bio
    ensures actor.imageUrl == f.imageUrl && actor.dateOfBirth == f.birthday
  {
    Actor(newId, f.name.value, f.bio, f.birthday, f.imageUrl)
  }

  /** The column limits of a stored actor. */
  predicate ActorFitsColumns(actor: Actor) {
    |actor.name| <= 100 && AtMost(actor.bio, 500) && AtMost(actor.imageUrl, 255)
  }

  /** A name of exactly 100 characters is accepted, 101 is not. */
  lemma ActorNameBoundary(a: Annotations, f: ActorForm, name: string)
    requires ActorFormValid(a, f) && Required(a, Some(name))
    ensures |name| == 100 ==> ActorFormValid(a, f.(name := Some(name)))
    ensures |name| == 101 ==> !ActorFormValid(a, f.(name := Some(name)))
  {
  }

  /** A valid actor form fits the columns exactly when its biography and its
      image URL do: a biography of 501 to 1000 characters passes the form and
      overflows the 500-character column. */
  lemma ValidActorFormFitsColumnsIff(a: Annotations, f: ActorForm, newId: int)
    requires ActorFormValid(a, f)
    ensures ActorFitsColumns(ActorFromForm(f, newId)) <==> |f.bio.value| <= 500 && AtMost(f.imageUrl, 255)
    ensures 500 < |f.bio.value| ==> !ActorFitsColumns(ActorFromForm(f, newId))
  {
  }

  /** A biography of any length from 501 to 1000 passes the form when the
      other fields do. */
  lemma LongBioPassesForm(a: Annotations, f: ActorForm, bio: string)
    requires ActorFormValid(a, f) && 500 < |bio| <= 1000 && Required(a, Some(bio))
    ensures ActorFormValid(a, f.(bio := Some(bio)))
    ensures !ActorFitsColumns(ActorFromForm(f.(bio := Some(bio)), 0))
  {
  }
}

=== FILE: wrappers.dfy ===
/** Failure-compatible wrappers used by every module of the model:
    `Option` stands for a C# reference that may be null, `Result` for an
    operation that either completes or throws. */
module Wrappers {

  datatype Option<+T> = None | Some(value: T)

  datatype Result<+R, +E> = Success(value: R) | Failure(error: E)
}
